=== FILE: README.md ===
# Amazon Birds Research client — a Dafny model of its page logic

The client is a React front end for a bird-survey research project. Most of
it is presentation, but several pages hold logic that decides what the user
sees. This project lifts that logic out as pure Dafny functions and small state
machines and proves properties about them:

- **Listing pages.** The observed-species grid and the research list each have:
  - a case-insensitive name search;
  - client-side pages of 12 and 6 items;
  - previous/next arrows;
  - numbered page buttons. The species grid shows a sliding window of five; the research list shows every page.
- **Research list cards.** Each card gets a role badge (leader, member or other) and a member count. The list is fetched from an endpoint chosen by the user's role.
- **Detail pages.**
  - Samples are sorted by date and sampling points by point number. The user can toggle the direction.
  - A species search runs over three fields of each observation.
  - Per-sample counts are shown on each card.
  - A statistics panel sums over all samples.
  - Cards are decorated by picking from a palette with `index % length`.
- **Session.** The authentication context works as a state machine with `login`, `logout`, `authenticateUser` and `updateUser`. It keeps in-memory state plus one persisted credentials slot, and the clock is a parameter.
- **Research editing modal.**
  - The form is initialised from a research record.
  - Single fields and sub-fields can be edited.
  - Objectives and results are added (trimmed) and removed by position.
  - The local state around the change-leader and save requests is modelled.
- **Sidebar.** The user's initials, display name and role, each with its fallback.

JavaScript semantics are written out where they matter:
- the truthiness of `||` and `?:` on optional values;
- `%` truncating toward zero;
- `Array.prototype.slice` with negative indices;
- the stable `Array.prototype.sort`;
- the full ECMAScript whitespace set of `trim`;
- `includes` as a left-to-right scan.

Modules:

- `Wrappers`: the `Option` type.
- `Arith`: two arithmetic facts (monotone multiplication, unique quotient and remainder).
- `Text`: truthiness, ASCII case mapping, `includes`, `trim`.
- `Filtering`: `Array.prototype.filter`.
- `Pagination`: `Math.ceil` page count, `slice`, pages and the five-button window.
- `Sorting`: the sort, its direction and its toggle.
- `Palette`: gradients and icons.
- `Users`: the user record.
- `Session`: the authentication context.
- `Sidebar`: the user labels.
- `ObservedSpecies`, `ResearchList`, `SamplingPointDetail`, `ResearchDetail`: one module per page.
- `EditResearch`: the research editing modal.

## Model

| member | source | states |
|---|---|---|
| `Text.LowerChar` | src/pages/ObservedSpeciesPage/ObservedSpeciesPage.jsx:78 | lower-casing maps exactly the ASCII capitals 32 code points down and leaves every other character alone |
| `Text.UpperChar` | src/components/Sidebar/Sidebar.jsx:18-19 | upper-casing maps exactly the ASCII small letters 32 code points up and leaves every other character alone |
| `Text.Lower` | src/pages/ObservedSpeciesPage/ObservedSpeciesPage.jsx:78 | `toLowerCase` keeps the length and lower-cases position by position |
| `Text.LowerIdempotent` | src/pages/ResearchListPage/ResearchListPage.jsx:62 | lower-casing an already lower-cased text changes nothing |
| `Text.Includes` | src/pages/ObservedSpeciesPage/ObservedSpeciesPage.jsx:78 | the empty needle is always found; a found needle fits in the text and its first character occurs in it |
| `Text.IncludesIffOccurs` | src/pages/ObservedSpeciesPage/ObservedSpeciesPage.jsx:78 | `includes` is true exactly when the needle occurs at some position of the text |
| `Text.ContainsIgnoreCaseMeaning` | src/pages/ResearchListPage/ResearchListPage.jsx:61-62 | the case-insensitive match holds exactly when the lower-cased term occurs in the lower-cased text; the empty term matches every text |
| `Text.LeadingWhitespace` | src/components/Sidebar/Sidebar.jsx:29 | the length of the longest whitespace prefix: all of it is whitespace and the next character is not |
| `Text.TrailingWhitespace` | src/components/Sidebar/Sidebar.jsx:29 | the length of the longest whitespace suffix: all of it is whitespace and the character before is not |
| `Text.Trim` | src/components/Sidebar/Sidebar.jsx:29 | `trim` returns a contiguous piece of the input with only whitespace cut from either end and no whitespace left at either end; it is empty exactly when the input is all whitespace |
| `Text.TrimAround` | src/components/EditResearchModal/EditResearchModal.jsx:89-92 | whitespace around a non-empty core that has no whitespace at its ends is exactly what `trim` removes |
| `Text.TrimIdempotent` | src/components/EditResearchModal/EditResearchModal.jsx:92 | trimming a trimmed text changes nothing |
| `Filtering.Filter` | src/pages/ObservedSpeciesPage/ObservedSpeciesPage.jsx:77-79 | `filter` keeps every accepted element and only accepted elements of the input, and never grows the list |
| `Filtering.FilterConcat` | src/pages/ResearchListPage/ResearchListPage.jsx:61-63 | filtering a concatenation filters each part, so kept elements stay in input order |
| `Filtering.FilterKeepsAll` | src/pages/ObservedSpeciesPage/ObservedSpeciesPage.jsx:77-79 | a predicate accepting every element keeps the list unchanged |
| `Filtering.FilterCounts` | src/pages/ObservedSpeciesPage/ObservedSpeciesPage.jsx:77-79 | the filter keeps every accepted element exactly as often as it occurs and drops every other element |
| `Pagination.TotalPages` | src/pages/ObservedSpeciesPage/ObservedSpeciesPage.jsx:88 | `Math.ceil(n / size)` is the least page count whose pages hold all `n` items |
| `Pagination.TwoPagesIffMoreThanOnePage` | src/pages/ResearchListPage/ResearchListPage.jsx:300 | there are at least two pages exactly when there are more items than one page holds |
| `Pagination.RelativeIndex` | src/pages/ResearchListPage/ResearchListPage.jsx:70 | `slice` clamps a non-negative index to the length and counts a negative one from the end, never below 0 |
| `Pagination.JsSlice` | src/pages/ObservedSpeciesPage/ObservedSpeciesPage.jsx:87 | for `0 <= start <= end`, `slice` is the sub-sequence between the two indices clamped to the length; it never holds more than `end - start` items |
| `Pagination.Page` | src/pages/ObservedSpeciesPage/ObservedSpeciesPage.jsx:85-87 | page `p >= 1` is the items from `(p - 1) * size` up to `p * size`, clamped, and holds at most `size` items |
| `Pagination.PageNonEmptyIff` | src/pages/ResearchListPage/ResearchListPage.jsx:68-71 | a page `p >= 1` is non-empty exactly when `p` is at most the page count |
| `Pagination.TotalPagesByDivision` | src/pages/ResearchListPage/ResearchListPage.jsx:71 | the page count is the quotient plus one exactly when there is a remainder |
| `Pagination.LastPageSize` | src/pages/ObservedSpeciesPage/ObservedSpeciesPage.jsx:85-88 | the last page holds the remainder of the division, or a full page when there is none |
| `Pagination.PageFollows` | src/pages/ObservedSpeciesPage/ObservedSpeciesPage.jsx:85-87 | each page starts where the previous one stopped |
| `Pagination.PagesUpToPrefix` | src/pages/ObservedSpeciesPage/ObservedSpeciesPage.jsx:85-87 | pages 1..k laid end to end are the first `k * size` items |
| `Pagination.PagesPartition` | src/pages/ResearchListPage/ResearchListPage.jsx:68-71 | pages 1..page count laid end to end give back exactly the filtered list |
| `Pagination.PageWindow` | src/pages/ObservedSpeciesPage/ObservedSpeciesPage.jsx:382-392 | the window has `min(total, 5)` consecutive page numbers, each in `[1, total]`, and contains the current page exactly when that page is in `[1, total]` |
| `Sorting.Toggle` | src/pages/SamplingPointDetailPage/SamplingPointDetailPage.jsx:87-89 | toggling always changes the direction |
| `Sorting.ToggleInvolution` | src/pages/ResearchDetailPage/ResearchDetailPage.jsx:68-70 | toggling twice restores the direction |
| `Sorting.Insert` | src/pages/SamplingPointDetailPage/SamplingPointDetailPage.jsx:141-145 | one insertion step adds exactly one copy of the element |
| `Sorting.InsertSorted` | src/pages/SamplingPointDetailPage/SamplingPointDetailPage.jsx:141-145 | inserting into a sorted list keeps it sorted |
| `Sorting.SortBy` | src/pages/SamplingPointDetailPage/SamplingPointDetailPage.jsx:141-145 | the sorted copy is a permutation of the input, ordered by the comparator of the chosen direction |
| `Sorting.SortStep` | src/pages/SamplingPointDetailPage/SamplingPointDetailPage.jsx:141-145 | inserting the head into the sorted tail gives a sorted permutation of the whole list |
| `Sorting.InsertStable` | src/pages/ResearchDetailPage/ResearchDetailPage.jsx:101-105 | an insertion step puts the element before every element of equal key that followed it |
| `Sorting.SortStable` | src/pages/ResearchDetailPage/ResearchDetailPage.jsx:101-105 | the sort is stable: elements sharing a key keep their input order, in both directions |
| `Sorting.SortDistinct` | src/pages/ResearchDetailPage/ResearchDetailPage.jsx:101-105 | sorting keeps the keys distinct when they were |
| `Sorting.SortedUnique` | src/pages/ResearchDetailPage/ResearchDetailPage.jsx:101-105 | with distinct keys there is only one sorted ordering of the elements |
| `Sorting.SameKeyOrderHeads` | src/pages/ResearchDetailPage/ResearchDetailPage.jsx:101-105 | two sorted lists whose equal-key elements appear in the same order start with the same element |
| `Sorting.SameKeyOrderTails` | src/pages/ResearchDetailPage/ResearchDetailPage.jsx:101-105 | dropping a shared first element keeps the equal-key order of the rest the same |
| `Sorting.StableSortedUnique` | src/pages/ResearchDetailPage/ResearchDetailPage.jsx:101-105 | a sorted list is fixed by the order of its elements within each key |
| `Sorting.SortByIsTheStableSort` | src/pages/SamplingPointDetailPage/SamplingPointDetailPage.jsx:141-145 | any sorted list keeping the input order within each key equals the sort's result, so the model agrees with every stable sort using the same comparator |
| `Sorting.Reverse` | src/pages/ResearchDetailPage/ResearchDetailPage.jsx:101-105 | reading a list backwards puts element `i` at position `n - 1 - i` |
| `Sorting.ReverseAscIsDesc` | src/pages/ResearchDetailPage/ResearchDetailPage.jsx:101-105 | an ascending list read backwards is descending |
| `Sorting.DescIsReversedAsc` | src/pages/ResearchDetailPage/ResearchDetailPage.jsx:101-105 | with distinct keys the descending order is the ascending order read backwards |
| `Palette.JsRemainder` | src/pages/ResearchListPage/ResearchListPage.jsx:95 | JavaScript's `%` takes the sign of the dividend: the mathematical remainder for non-negative dividends, the negated remainder of the magnitude for negative ones, and zero exactly when the divisor divides the dividend |
| `Palette.Pick` | src/pages/SamplingPointDetailPage/SamplingPointDetailPage.jsx:118 | `palette[index % length]` is entry `index mod length` for non-negative indices; a negative index gives `undefined` unless it is a multiple of the length |
| `Palette.PickPeriodic` | src/pages/ResearchDetailPage/ResearchDetailPage.jsx:96 | the choice repeats with the palette's length |
| `Palette.BackgroundGradient` | src/pages/SamplingPointDetailPage/SamplingPointDetailPage.jsx:109-119 | every non-negative index gets gradient `index mod 6` |
| `Palette.GetNatureIcon` | src/pages/ResearchDetailPage/ResearchDetailPage.jsx:94-98 | every non-negative index gets icon `index mod 5` |
| `Session.Mount` | src/contexts/AuthContext.jsx:6-9 | the provider starts unauthenticated and loading, with no user or token, whatever storage holds |
| `Session.Login` | src/contexts/AuthContext.jsx:31-44 | after `login` the store holds the user, token and expiry, and the session holds the user and token and is authenticated |
| `Session.Logout` | src/contexts/AuthContext.jsx:46-51 | after `logout` the user, token and store are empty and the session is unauthenticated; loading is untouched |
| `Session.LogoutIdempotent` | src/contexts/AuthContext.jsx:46-51 | logging out twice is the same as once |
| `Session.IsTokenExpired` | src/contexts/AuthContext.jsx:54-56 | a token is expired from the millisecond after its expiry onwards |
| `Session.ExpiredStaysExpired` | src/contexts/AuthContext.jsx:54-56 | once expired, a token stays expired at every later time |
| `Session.ExpiryBoundary` | src/contexts/AuthContext.jsx:54-56 | a token is still valid at its expiry instant and expired one millisecond later |
| `Session.AuthenticateUser` | src/contexts/AuthContext.jsx:59-80 | with an empty store only loading ends; with expired credentials it is `logout`; otherwise it restores the stored user and token and authenticates; loading always ends |
| `Session.UpdateUser` | src/contexts/AuthContext.jsx:11-28 | with stored credentials only the user changes, in memory and in the store, keeping token and expiry; with none nothing changes |
| `Session.BootConsistent` | src/contexts/AuthContext.jsx:83-85 | after the mount-time `authenticateUser` the session invariant holds |
| `Session.ApplyPreservesConsistent` | src/contexts/AuthContext.jsx:11-80 | every transition preserves the invariant: authenticated exactly when a token, a user and stored credentials are held, and they match the stored ones |
| `Session.RunPreservesConsistent` | src/contexts/AuthContext.jsx:11-80 | any sequence of transitions preserves the invariant |
| `Session.ReachableConsistent` | src/contexts/AuthContext.jsx:31-85 | every state reachable after mounting satisfies the invariant |
| `Session.TokenTracksAuthentication` | src/contexts/AuthContext.jsx:6-80 | even before the mount-time check, being authenticated and holding a token go together |
| `Session.LoginSurvivesReload` | src/pages/LoginPage/LoginPage.jsx:58 | a login with the six-hour expiry is restored after a reload exactly until the expiry, with the same user and token; after it the reload clears storage |
| `Sidebar.InitialOf` | src/components/Sidebar/Sidebar.jsx:18-19 | a name's initial is its upper-cased first character when the name is present and non-empty, otherwise empty |
| `Sidebar.UserInitials` | src/components/Sidebar/Sidebar.jsx:16-22 | initials are one or two characters with no lower-case ASCII letters: the first-name initial then the last-name initial, `U` when neither exists or there is no user |
| `Sidebar.FullName` | src/components/Sidebar/Sidebar.jsx:25-30 | the display name is never empty and has no whitespace at its ends: `Usuario` without a user or when the joined name is blank, otherwise the joined name trimmed |
| `Sidebar.TrimJoined` | src/components/Sidebar/Sidebar.jsx:29 | for names without surrounding whitespace, trimming `first + " " + middle` joins the non-empty names with one space |
| `Sidebar.FullNameOfCleanParts` | src/components/Sidebar/Sidebar.jsx:25-30 | for such names the display name is both names, the one that is present, or `Usuario` |
| `Sidebar.RoleLabel` | src/components/Sidebar/Sidebar.jsx:97 | the role is shown when present and non-empty, otherwise `Usuario` |
| `ObservedSpecies.FilterSpecies` | src/pages/ObservedSpeciesPage/ObservedSpeciesPage.jsx:77-79 | a species is kept exactly when its name contains the term ignoring case, as many times as it occurs in the list and no more; the empty term keeps the whole list |
| `ObservedSpecies.FilterSpeciesKeepsOrder` | src/pages/ObservedSpeciesPage/ObservedSpeciesPage.jsx:77-79 | the kept species stay in input order |
| `ObservedSpecies.Step` | src/pages/ObservedSpeciesPage/ObservedSpeciesPage.jsx:76-92 | a new list or a new search term resets the page to 1 and repeating the term changes nothing; when the controls are shown, an enabled arrow moves exactly one page and a window button jumps to its page; a disabled arrow, a button outside the window or hidden controls change nothing |
| `ObservedSpecies.FilterChangeShowsFirstPage` | src/pages/ObservedSpeciesPage/ObservedSpeciesPage.jsx:76-88 | a new list or a new search term shows page 1, the first twelve matches |
| `ObservedSpecies.HiddenControlsInert` | src/pages/ObservedSpeciesPage/ObservedSpeciesPage.jsx:371 | with at most one page the arrows and buttons are absent and clicks change nothing |
| `ObservedSpecies.StepKeepsPageInRange` | src/pages/ObservedSpeciesPage/ObservedSpeciesPage.jsx:373-411 | the disabled arrows and the window keep the current page between 1 and the page count |
| `ObservedSpecies.ReachablePageInRange` | src/pages/ObservedSpeciesPage/ObservedSpeciesPage.jsx:76-92 | after any events the page stays in range, and the grid shows something whenever there are matches |
| `ObservedSpecies.ShownWhenInRange` | src/pages/ObservedSpeciesPage/ObservedSpeciesPage.jsx:85-88 | an in-range page is non-empty whenever there are matches |
| `ObservedSpecies.InitialInRange` | src/pages/ObservedSpeciesPage/ObservedSpeciesPage.jsx:38 | the page starts in range |
| `ResearchList.ResearchEndpoint` | src/pages/ResearchListPage/ResearchListPage.jsx:40 | the list comes from `/api/research` exactly when the user's role is `admin`, otherwise from `/api/research?myRole=all` |
| `ResearchList.FilterResearches` | src/pages/ResearchListPage/ResearchListPage.jsx:60-62 | a research is kept exactly when its name contains the term ignoring case, as many times as it occurs and no more; the empty term keeps all |
| `ResearchList.FilterResearchesKeepsOrder` | src/pages/ResearchListPage/ResearchListPage.jsx:61-63 | the kept researches stay in input order |
| `ResearchList.IsLeader` | src/pages/ResearchListPage/ResearchListPage.jsx:75 | a leader is one of the research's people |
| `ResearchList.IsTeamMember` | src/pages/ResearchListPage/ResearchListPage.jsx:77-78 | the user is a team member exactly when the user's uuid is one of the team's uuids |
| `ResearchList.BadgeFor` | src/pages/ResearchListPage/ResearchListPage.jsx:201-207 | exactly one badge: leader when the user leads, member when the user is on the team but does not lead, other otherwise |
| `ResearchList.MemberCount` | src/pages/ResearchListPage/ResearchListPage.jsx:266 | the shown count is at least one and never below the number of distinct people on the research |
| `ResearchList.TeamUuids` | src/pages/ResearchListPage/ResearchListPage.jsx:77-78 | the team's identifiers are exactly those some member carries |
| `ResearchList.DistinctTeamSize` | src/pages/ResearchListPage/ResearchListPage.jsx:266 | a team with no repeated member has as many identifiers as members |
| `ResearchList.TeamUuidsAtMost` | src/pages/ResearchListPage/ResearchListPage.jsx:266 | a team never has more identifiers than members |
| `ResearchList.MemberCountCountsPeople` | src/pages/ResearchListPage/ResearchListPage.jsx:266 | `team.length + 1` never undercounts the people on a research, and counts them exactly if and only if the leader is not listed in the team and nobody is listed twice |
| `ResearchList.DuplicateShrinksTeamUuids` | src/pages/ResearchListPage/ResearchListPage.jsx:266 | a team listing some uuid twice has fewer distinct uuids than entries |
| `ResearchList.PrevPage` | src/pages/ResearchListPage/ResearchListPage.jsx:303 | the previous move gives `max(current - 1, 1)` |
| `ResearchList.NextPage` | src/pages/ResearchListPage/ResearchListPage.jsx:324 | the next move gives `min(current + 1, total)` and stays in `[1, total]` from an in-range page |
| `ResearchList.PageMovesStayInRange` | src/pages/ResearchListPage/ResearchListPage.jsx:300-326 | from a page in `[1, total]`, the previous and next arrows lead to a page in `[1, total]` at most one step away |
| `ResearchList.PageNumbers` | src/pages/ResearchListPage/ResearchListPage.jsx:310 | the numbered buttons are exactly `1..total` in order |
| `ResearchList.ControlsVisibleIffSeveralPages` | src/pages/ResearchListPage/ResearchListPage.jsx:300 | the controls appear exactly when there are at least two pages |
| `ResearchList.Step` | src/pages/ResearchListPage/ResearchListPage.jsx:60-73 | a new list or a new search term resets the page to 1 and repeating the term changes nothing; when the controls are shown, an enabled arrow moves to the clamped previous or next page and a page button jumps to its page; otherwise clicks change nothing |
| `ResearchList.FilterChangeShowsFirstPage` | src/pages/ResearchListPage/ResearchListPage.jsx:60-71 | a new list or a new term shows page 1, the first six matches |
| `ResearchList.StepKeepsPageInRange` | src/pages/ResearchListPage/ResearchListPage.jsx:300-326 | the clamped moves, disabled arrows and page buttons keep the page in range |
| `ResearchList.ReachablePageInRange` | src/pages/ResearchListPage/ResearchListPage.jsx:60-73 | after any events the page stays in range and shows something whenever there are matches |
| `ResearchList.InitialInRange` | src/pages/ResearchListPage/ResearchListPage.jsx:26 | the page starts in range |
| `ResearchList.CardAt` | src/pages/ResearchListPage/ResearchListPage.jsx:186-192 | the card at position `i` gets icon `i mod 5` and gradient `i mod 6` |
| `ResearchList.PageCardsLook` | src/pages/ResearchListPage/ResearchListPage.jsx:86-102 | the six cards of a page have six different gradients, and only the first and sixth share an icon |
| `SamplingPointDetail.SortedSamples` | src/pages/SamplingPointDetailPage/SamplingPointDetailPage.jsx:141-145 | without a point or a sample list the list is empty; otherwise a permutation of the samples ordered by date in the chosen direction |
| `SamplingPointDetail.SameDateKeepsOrder` | src/pages/SamplingPointDetailPage/SamplingPointDetailPage.jsx:141-145 | samples with the same date keep their payload order |
| `SamplingPointDetail.ToggleReverses` | src/pages/SamplingPointDetailPage/SamplingPointDetailPage.jsx:87-89 | with distinct dates, toggling from ascending shows the same samples read backwards |
| `SamplingPointDetail.FilteredSpecies` | src/pages/SamplingPointDetailPage/SamplingPointDetailPage.jsx:148-155 | without a term the observations are shown as they are (none when absent); with one, exactly those whose name, activity or substrate contains it ignoring case, a missing field never matching |
| `SamplingPointDetail.FilteredSpeciesKeepsOrder` | src/pages/SamplingPointDetailPage/SamplingPointDetailPage.jsx:150-154 | the shown observations keep their recorded order |
| `SamplingPointDetail.OccurrenceKeepsEntry` | src/pages/SamplingPointDetailPage/SamplingPointDetailPage.jsx:151 | an observation whose name contains the term at some position is shown |
| `SamplingPointDetail.SumAbundanceConcat` | src/pages/SamplingPointDetailPage/SamplingPointDetailPage.jsx:172-174 | summing abundances over a concatenation adds the two sums |
| `SamplingPointDetail.FilterSumAtMost` | src/pages/SamplingPointDetailPage/SamplingPointDetailPage.jsx:666 | with non-negative abundances, leaving observations out never adds individuals |
| `SamplingPointDetail.SampleCounts` | src/pages/SamplingPointDetailPage/SamplingPointDetailPage.jsx:660-666 | a card never shows more species than the sample has, and without a term it shows all of them and all their individuals |
| `SamplingPointDetail.SearchNarrowsCounts` | src/pages/SamplingPointDetailPage/SamplingPointDetailPage.jsx:660-666 | with non-negative abundances a search never raises a card's individual count |
| `SamplingPointDetail.NamesOf` | src/pages/SamplingPointDetailPage/SamplingPointDetailPage.jsx:165-170 | the collected names are exactly the names some observation carries |
| `SamplingPointDetail.CountObservations` | src/pages/SamplingPointDetailPage/SamplingPointDetailPage.jsx:162-163 | the running count of observations equals the length of the flattened list of all observations |
| `SamplingPointDetail.CollectNames` | src/pages/SamplingPointDetailPage/SamplingPointDetailPage.jsx:165-170 | the collected name set is exactly the set of names over all observations |
| `SamplingPointDetail.CountIndividuals` | src/pages/SamplingPointDetailPage/SamplingPointDetailPage.jsx:172-174 | the nested running sum equals the abundance sum over all observations |
| `SamplingPointDetail.AllEntriesSnoc` | src/pages/SamplingPointDetailPage/SamplingPointDetailPage.jsx:161-174 | flattening the samples ends with the last sample's observations |
| `SamplingPointDetail.NamesOfConcat` | src/pages/SamplingPointDetailPage/SamplingPointDetailPage.jsx:165-170 | the names of a concatenation are the union of the names of each part |
| `SamplingPointDetail.SumAbundance` | src/pages/SamplingPointDetailPage/SamplingPointDetailPage.jsx:666 | with non-negative abundances the sum is non-negative and at least the first entry's abundance |
| `SamplingPointDetail.NamesAtMost` | src/pages/SamplingPointDetailPage/SamplingPointDetailPage.jsx:165-170 | there are never more distinct names than observations |
| `SamplingPointDetail.GetStatistics` | src/pages/SamplingPointDetailPage/SamplingPointDetailPage.jsx:158-192 | nothing before the point loads; otherwise the sample count, the observation count, the distinct names (at most the observation count) and the total abundance over all observations, a missing list counting as empty |
| `SamplingPointDetail.CardsAddUpToTotal` | src/pages/SamplingPointDetailPage/SamplingPointDetailPage.jsx:172-174 | without a search, the individuals on the sample cards add up to the panel's total |
| `ResearchDetail.SortedSamplingPoints` | src/pages/ResearchDetailPage/ResearchDetailPage.jsx:101-105 | without a research or a point list the list is empty; otherwise a permutation of the points ordered by point number in the chosen direction |
| `ResearchDetail.SameNumberKeepsOrder` | src/pages/ResearchDetailPage/ResearchDetailPage.jsx:101-105 | distinct points (told apart by their uuid) sharing a number keep their payload order |
| `ResearchDetail.TiedPointsKeepPayloadOrder` | src/pages/ResearchDetailPage/ResearchDetailPage.jsx:101-105 | points that all share one number are shown in payload order in either direction |
| `ResearchDetail.ToggleReverses` | src/pages/ResearchDetailPage/ResearchDetailPage.jsx:68-70 | with distinct numbers, toggling from the initial ascending order shows the same points read backwards |
| `ResearchDetail.PointIcon` | src/pages/ResearchDetailPage/ResearchDetailPage.jsx:253-254 | the card at position `i` gets icon `i mod 5` |
| `ResearchDetail.NeighbourIconsDiffer` | src/pages/ResearchDetailPage/ResearchDetailPage.jsx:94-98 | neighbouring cards never share an icon and the icons repeat every five cards |
| `EditResearch.BeforeT` | src/components/EditResearchModal/EditResearchModal.jsx:35 | `split('T')[0]` is the longest prefix without `T`: a prefix of the input, free of `T`, followed by `T` when shorter |
| `EditResearch.BeforeTOfTimestamp` | src/components/EditResearchModal/EditResearchModal.jsx:35-36 | an ISO timestamp keeps its date part, and a text without `T` is kept whole |
| `EditResearch.DateInput` | src/components/EditResearchModal/EditResearchModal.jsx:35-36 | a present, non-empty date becomes its text before the first `T` (a prefix of it, with no `T`); a missing or empty one becomes the empty text |
| `EditResearch.HeightOrZero` | src/components/EditResearchModal/EditResearchModal.jsx:39 | a set, non-zero, non-empty height is kept; a missing, empty or zero one becomes `0` |
| `EditResearch.FormFrom` | src/components/EditResearchModal/EditResearchModal.jsx:30-43 | every field of the built form: each text falls back to `""` and the status to `Ejecución` when missing or empty, lists, coordinates and locality fall back to their empty defaults only when missing, dates lose their time part, the height falls back to `0`; the built form is always settled |
| `EditResearch.ReopenRoundTrip` | src/components/EditResearchModal/EditResearchModal.jsx:28-49 | re-opening the modal on the record a form was saved as shows the same form exactly when that form is settled |
| `EditResearch.Open` | src/components/EditResearchModal/EditResearchModal.jsx:28-49 | with a research and the modal open the form is rebuilt and the three text boxes and the error are cleared; otherwise nothing changes |
| `EditResearch.FormDeterminedByInputs` | src/components/EditResearchModal/EditResearchModal.jsx:7-20 | the inputs and the two lists together determine the whole form |
| `EditResearch.HandleInputChange` | src/components/EditResearchModal/EditResearchModal.jsx:76-85 | the edited field or sub-field now holds the typed text and every other input and both lists are unchanged |
| `EditResearch.EditsCommute` | src/components/EditResearchModal/EditResearchModal.jsx:76-85 | edits to different inputs commute and the last edit to an input wins |
| `EditResearch.AddEntry` | src/components/EditResearchModal/EditResearchModal.jsx:88-96 | a non-blank draft is appended trimmed and the box cleared; a blank one changes nothing; every new entry is non-empty and trimmed |
| `EditResearch.WithoutIndex` | src/components/EditResearchModal/EditResearchModal.jsx:110-115 | filtering out position `i` removes exactly that element and keeps the others in order; an index out of range changes nothing |
| `EditResearch.SpliceMultiset` | src/components/EditResearchModal/EditResearchModal.jsx:118-123 | cutting out one position removes exactly one copy of its element |
| `EditResearch.WithoutIndexMultiset` | src/components/EditResearchModal/EditResearchModal.jsx:118-123 | removal by position removes exactly one copy even when the text is repeated, and shortens the list by one |
| `EditResearch.AddThenRemove` | src/components/EditResearchModal/EditResearchModal.jsx:88-115 | removing the entry just added restores the list |
| `EditResearch.AddObjective` | src/components/EditResearchModal/EditResearchModal.jsx:88-96 | a non-blank objective is appended trimmed and its box cleared; otherwise nothing changes; nothing else changes in any case |
| `EditResearch.AddResult` | src/components/EditResearchModal/EditResearchModal.jsx:99-107 | the same for results |
| `EditResearch.RemoveObjective` | src/components/EditResearchModal/EditResearchModal.jsx:110-115 | the objective at an in-range index is removed, the others kept in order; any other index changes nothing |
| `EditResearch.RemoveResult` | src/components/EditResearchModal/EditResearchModal.jsx:118-123 | the same for results |
| `EditResearch.AddObjectiveThenRemove` | src/components/EditResearchModal/EditResearchModal.jsx:88-115 | adding an objective and removing it again restores the form |
| `EditResearch.ChangeLeader` | src/components/EditResearchModal/EditResearchModal.jsx:144-152 | a request is sent exactly when none is in flight and the cédula is not blank; it carries the cédula as typed, sets loading and clears the error; a blank cédula only sets the validation error |
| `EditResearch.ChangeLeaderDone` | src/components/EditResearchModal/EditResearchModal.jsx:153-161 | the answer ends loading; success clears the cédula box and failure shows the change-leader error; the form and the two drafts stay as they were |
| `EditResearch.Submit` | src/components/EditResearchModal/EditResearchModal.jsx:126-133 | a save is sent exactly when none is in flight; it carries the whole form, sets loading and clears the error |
| `EditResearch.SubmitDone` | src/components/EditResearchModal/EditResearchModal.jsx:134-141 | the answer ends loading; failure shows the save error; the form, the drafts and the cédula box stay as they were |
| `EditResearch.OneRequestAtATime` | src/components/EditResearchModal/EditResearchModal.jsx:442-472 | while one request is in flight neither button sends another |

## Left out

- Network requests (axios GET and PATCH) are left out.
  - Only the decision before each request is modelled: the endpoint choice, the blank-cédula guard and the in-flight guard. The answer is a parameter (`ok`).
  - Response envelopes are not modelled.
  - The `onUpdate` and `onClose` callbacks are not modelled.
- `localStorage` and `JSON.parse`/`JSON.stringify` are not modelled directly. The store is one `Option<Credentials>` slot. A malformed stored value, which would make the unguarded parse throw, is not modelled.
- Dates are not parsed or formatted.
  - Samples carry an already-parsed integer timestamp.
  - Date strings in the modal are plain text.
  - `Date.now()` is a parameter.
  - `formatDate` and `toLocaleDateString` are not modelled.
  - Invalid dates, whose `NaN` makes the sort comparator inconsistent, are not modelled.
- Floating point is left out:
  - the rounded temperature and humidity averages of the statistics panel;
  - non-integer abundances;
  - coordinate formatting.
- Case mapping covers ASCII letters only. Unicode case mapping (for example `'ß'.toUpperCase()` being `"SS"`) is not modelled. `trim` uses the full ECMAScript whitespace set.
- Strings are sequences of Unicode scalar values, not UTF-16 code units: for a name starting with a character outside the Basic Multilingual Plane, `charAt(0)` yields half a surrogate pair, while `InitialOf` takes the whole character.
- SamplingPointDetail.CollectNames: an observation whose `species` is `null` and one with no `species` key both give the name `None`, so they count once in `uniqueSpecies`; a JavaScript `Set` keeps `null` and `undefined` apart and would count two.
- SamplingPointDetail.GetStatistics: its `uniqueSpecies` inherits that merge from `CollectNames`.
- JavaScript's `+` on a string abundance, which concatenates instead of adding, is not modelled.
- `toLowerCase` called on a non-string field, which would throw, is not modelled.
- A leader or a team member with no `uuid` while no one is signed in is not modelled: uuids are always strings. The source's `undefined === undefined` would make that viewer the leader (`isLeader`) or a team member (`isTeamMember`).
- Browser events and React scheduling are left out: entry animations, ESC and outside-click listeners, `document.body.style` changes, and the `alert` stub of the delete button. Effects are modelled as running once per change of their dependencies.
- Presentation is left out: markup, styles, icon components, carousels and maps.
- The following files hold no page logic and are not part of this model:
  - `SpeciesDetailModal` is display only.
  - `LoginPage` is network and navigation; only its six-hour expiry constant is used.
  - `HomePage`, `App` and `main` are static content, routing and start-up.
- The weather-icon and precipitation-colour helpers of the sampling-point page are left out because they are presentation.

=== FILE: arith.dfy ===
/** Facts about multiplication and division by a positive divisor that
    the page and palette arithmetic relies on. */
module Arith {

  lemma MulMonotone(a: int, b: int, c: nat)
    requires a <= b
    ensures a * c <= b * c
  {
  }

  /** Integer division is determined by any quotient/remainder pair. */
  lemma DivUnique(a: int, b: int, q: int, m: int)
    requires b > 0 && 0 <= m < b && a == q * b + m
    ensures a / b == q && a % b == m
  {
    var q' := a / b;
    var m' := a % b;
    assert (q - q') * b == m' - m;
    if q > q' {
      MulMonotone(1, q - q', b);
    }
    if q < q' {
      MulMonotone(1, q' - q, b);
    }
  }
}

=== FILE: edit_research.dfy ===
/** The research editing modal: the form filled from a research record when
    the modal opens, field edits, the objective and result lists, and the
    local state around the change-leader and save requests. */
module EditResearch {
  import opened Wrappers
  import opened Text

  /** A form value: text typed into an input, or a number from the record. */
  datatype Value = Str(s: string) | Num(n: int)

  /** JavaScript truthiness of a value: `""` and `0` are falsy. */
  predicate ValueTruthy(v: Value) {
    match v
    case Str(s) => s != ""
    case Num(n) => n != 0
  }

  datatype Coordinates = Coordinates(latitude: Value, longitude: Value)

  datatype Locality = Locality(
    name: string, village: string, neighborhood: string,
    city: string, state: string, country: string)

  datatype Form = Form(
    name: string,
    description: string,
    objectives: seq<string>,
    results: seq<string>,
    startDate: string,
    endDate: string,
    habitatType: string,
    dominantVegetation: string,
    height: Value,
    coordinates: Coordinates,
    locality: Locality,
    status: string)

  const DefaultStatus := "Ejecución"
  const DefaultCoordinates := Coordinates(Num(0), Num(0))
  const EmptyLocality := Locality("", "", "", "", "", "")
  const DefaultForm := Form("", "", [], [], "", "", "", "", Num(0), DefaultCoordinates, EmptyLocality, DefaultStatus)

  /** A research as the modal receives it; any field may be missing. */
  datatype ResearchRecord = ResearchRecord(
    name: Option<string>,
    description: Option<string>,
    objectives: Option<seq<string>>,
    results: Option<seq<string>>,
    startDate: Option<string>,
    endDate: Option<string>,
    habitatType: Option<string>,
    dominantVegetation: Option<string>,
    height: Option<Value>,
    coordinates: Option<Coordinates>,
    locality: Option<Locality>,
    status: Option<string>)

  /** `s.split('T')[0]`: the text before the first `T`. */
  function BeforeT(s: string): (r: string)
    ensures r <= s
    ensures 'T' !in r
    ensures |r| < |s| ==> s[|r|] == 'T'
    decreases |s|
  {
    if |s| == 0 || s[0] == 'T' then [] else [s[0]] + BeforeT(s[1..])
  }

  /** An ISO timestamp keeps its date part; a text without `T` is kept
      whole. */
  lemma {:induction false} BeforeTOfTimestamp(date: string, time: string)
    requires 'T' !in date
    ensures BeforeT(date + "T" + time) == date
    ensures BeforeT(date) == date
    decreases |date|
  {
    if |date| > 0 {
      assert (date + "T" + time)[1..] == date[1..] + "T" + time;
      BeforeTOfTimestamp(date[1..], time);
    } else {
      assert date + "T" + time == ['T'] + time;
    }
  }

  /** `value ? value.split('T')[0] : ''`. */
  function DateInput(value: Option<string>): (r: string)
    ensures 'T' !in r
    ensures !Truthy(value) ==> r == ""
    ensures Truthy(value) ==> r == BeforeT(value.value) && r <= value.value
  {
    if Truthy(value) then BeforeT(value.value) else ""
  }

  /** `research.height || 0`. */
  function HeightOrZero(h: Option<Value>): (r: Value)
    ensures ValueTruthy(r) || r == Num(0)
    ensures h.Some? && ValueTruthy(h.value) ==> r == h.value
    ensures !(h.Some? && ValueTruthy(h.value)) ==> r == Num(0)
  {
    if h.Some? && ValueTruthy(h.value) then h.value else Num(0)
  }

  /** The form the opening effect builds from a research record. */
  function FormFrom(rec: ResearchRecord): (f: Form)
    ensures Settled(f)
    ensures f.name == OrElse(rec.name, "") && f.description == OrElse(rec.description, "")
    ensures f.habitatType == OrElse(rec.habitatType, "")
    ensures f.dominantVegetation == OrElse(rec.dominantVegetation, "")
    ensures f.status == OrElse(rec.status, DefaultStatus)
    ensures !Truthy(rec.status) ==> f.status == DefaultStatus
    ensures f.startDate == DateInput(rec.startDate) && f.endDate == DateInput(rec.endDate)
    ensures f.height == HeightOrZero(rec.height)
    ensures rec.objectives.Some? ==> f.objectives == rec.objectives.value
    ensures rec.objectives.None? ==> f.objectives == []
    ensures rec.results.Some? ==> f.results == rec.results.value
    ensures rec.results.None? ==> f.results == []
    ensures rec.coordinates.Some? ==> f.coordinates == rec.coordinates.value
    ensures rec.coordinates.None? ==> f.coordinates == Coordinates(Num(0), Num(0))
    ensures rec.locality.Some? ==> f.locality == rec.locality.value
    ensures rec.locality.None? ==> f.locality == Locality("", "", "", "", "", "")
  {
    Form(
      OrElse(rec.name, ""),
      OrElse(rec.description, ""),
      rec.objectives.GetOr([]),
      rec.results.GetOr([]),
      DateInput(rec.startDate),
      DateInput(rec.endDate),
      OrElse(rec.habitatType, ""),
      OrElse(rec.dominantVegetation, ""),
      HeightOrZero(rec.height),
      rec.coordinates.GetOr(DefaultCoordinates),
      rec.locality.GetOr(EmptyLocality),
      OrElse(rec.status, DefaultStatus))
  }

  /** The record a saved form becomes. */
  function RecordOf(f: Form): ResearchRecord {
    ResearchRecord(
      Some(f.name), Some(f.description), Some(f.objectives), Some(f.results),
      Some(f.startDate), Some(f.endDate), Some(f.habitatType), Some(f.dominantVegetation),
      Some(f.height), Some(f.coordinates), Some(f.locality), Some(f.status))
  }

  /** A form the opening effect leaves as it is: dates without a time part,
      a status, and a height that is set or zero. */
  predicate Settled(f: Form) {
    'T' !in f.startDate && 'T' !in f.endDate && f.status != ""
    && (ValueTruthy(f.height) || f.height == Num(0))
  }

  /** Re-opening the modal on the record a form was saved as shows the same
      form exactly when the form is settled. */
  lemma ReopenRoundTrip(f: Form)
    ensures Settled(f) <==> FormFrom(RecordOf(f)) == f
  {
    if Settled(f) {
      BeforeTOfTimestamp(f.startDate, "");
      BeforeTOfTimestamp(f.endDate, "");
    }
  }

  const InvalidCedulaMessage := "Por favor, ingresa un número de cédula válido."
  const ChangeLeaderFailedMessage := "Error al cambiar el líder. Por favor, verifica el número de cédula."
  const SaveFailedMessage := "Error al actualizar la investigación. Por favor, intenta de nuevo."

  /** The modal's state: the form, the three text boxes, the error line and
      whether a request is in flight. */
  datatype ModalState = ModalState(
    form: Form,
    newObjective: string,
    newResult: string,
    leaderCedula: string,
    error: Option<string>,
    isLoading: bool)

  const InitialModal := ModalState(DefaultForm, "", "", "", None, false)

  /** The opening effect: with a research and the modal open, the form is
      rebuilt and the text boxes and error are cleared; a request in flight
      is left as it is. */
  function Open(m: ModalState, research: Option<ResearchRecord>, isOpen: bool): (r: ModalState)
    ensures research.Some? && isOpen ==>
      r.form == FormFrom(research.value) && r.newObjective == "" && r.newResult == ""
      && r.leaderCedula == "" && r.error.None? && r.isLoading == m.isLoading
    ensures !(research.Some? && isOpen) ==> r == m
  {
    if research.Some? && isOpen then
      ModalState(FormFrom(research.value), "", "", "", None, m.isLoading)
    else m
  }

  /** The inputs wired to `handleInputChange`: a top-level field, or a
      sub-field of the coordinates or the locality. */
  datatype Field = NameField | StatusField | DescriptionField | StartDateField | EndDateField
                 | HabitatTypeField | DominantVegetationField | HeightField
  datatype CoordinateField = Latitude | Longitude
  datatype LocalityField = PlaceName | Village | Neighborhood | City | State | Country

  datatype Input = Top(field: Field) | Coordinate(axis: CoordinateField) | Place(part: LocalityField)

  /** What an input shows. */
  function Read(f: Form, input: Input): Value {
    match input
    case Top(NameField) => Str(f.name)
    case Top(StatusField) => Str(f.status)
    case Top(DescriptionField) => Str(f.description)
    case Top(StartDateField) => Str(f.startDate)
    case Top(EndDateField) => Str(f.endDate)
    case Top(HabitatTypeField) => Str(f.habitatType)
    case Top(DominantVegetationField) => Str(f.dominantVegetation)
    case Top(HeightField) => f.height
    case Coordinate(Latitude) => f.coordinates.latitude
    case Coordinate(Longitude) => f.coordinates.longitude
    case Place(PlaceName) => Str(f.locality.name)
    case Place(Village) => Str(f.locality.village)
    case Place(Neighborhood) => Str(f.locality.neighborhood)
    case Place(City) => Str(f.locality.city)
    case Place(State) => Str(f.locality.state)
    case Place(Country) => Str(f.locality.country)
  }

  /** The inputs together with the two lists determine the whole form. */
  lemma FormDeterminedByInputs(a: Form, b: Form)
    requires forall input :: Read(a, input) == Read(b, input)
    requires a.objectives == b.objectives && a.results == b.results
    ensures a == b
  {
    assert a.name == b.name by { assert Read(a, Top(NameField)) == Read(b, Top(NameField)); }
    assert a.status == b.status by { assert Read(a, Top(StatusField)) == Read(b, Top(StatusField)); }
    assert a.description == b.description by {
      assert Read(a, Top(DescriptionField)) == Read(b, Top(DescriptionField));
    }
    assert a.startDate == b.startDate by { assert Read(a, Top(StartDateField)) == Read(b, Top(StartDateField)); }
    assert a.endDate == b.endDate by { assert Read(a, Top(EndDateField)) == Read(b, Top(EndDateField)); }
    assert a.habitatType == b.habitatType by {
      assert Read(a, Top(HabitatTypeField)) == Read(b, Top(HabitatTypeField));
    }
    assert a.dominantVegetation == b.dominantVegetation by {
      assert Read(a, Top(DominantVegetationField)) == Read(b, Top(DominantVegetationField));
    }
    assert a.height == b.height by { assert Read(a, Top(HeightField)) == Read(b, Top(HeightField)); }
    assert a.coordinates == b.coordinates by {
      assert Read(a, Coordinate(Latitude)) == Read(b, Coordinate(Latitude));
      assert Read(a, Coordinate(Longitude)) == Read(b, Coordinate(Longitude));
    }
    assert a.locality == b.locality by {
      assert Read(a, Place(PlaceName)) == Read(b, Place(PlaceName));
      assert Read(a, Place(Village)) == Read(b, Place(Village));
      assert Read(a, Place(Neighborhood)) == Read(b, Place(Neighborhood));
      assert Read(a, Place(City)) == Read(b, Place(City));
      assert Read(a, Place(State)) == Read(b, Place(State));
      assert Read(a, Place(Country)) == Read(b, Place(Country));
    }
  }

  /** `handleInputChange(e, field, subField)`: the input now holds the typed
      text (a number input's value is text too), and nothing else in the
      form changes. */
  function HandleInputChange(f: Form, input: Input, text: string): (r: Form)
    ensures Read(r, input) == Str(text)
    ensures forall other :: other != input ==> Read(r, other) == Read(f, other)
    ensures r.objectives == f.objectives && r.results == f.results
  {
    match input
    case Top(NameField) => f.(name := text)
    case Top(StatusField) => f.(status := text)
    case Top(DescriptionField) => f.(description := text)
    case Top(StartDateField) => f.(startDate := text)
    case Top(EndDateField) => f.(endDate := text)
    case Top(HabitatTypeField) => f.(habitatType := text)
    case Top(DominantVegetationField) => f.(dominantVegetation := text)
    case Top(HeightField) => f.(height := Str(text))
    case Coordinate(Latitude) => f.(coordinates := f.coordinates.(latitude := Str(text)))
    case Coordinate(Longitude) => f.(coordinates := f.coordinates.(longitude := Str(text)))
    case Place(PlaceName) => f.(locality := f.locality.(name := text))
    case Place(Village) => f.(locality := f.locality.(village := text))
    case Place(Neighborhood) => f.(locality := f.locality.(neighborhood := text))
    case Place(City) => f.(locality := f.locality.(city := text))
    case Place(State) => f.(locality := f.locality.(state := text))
    case Place(Country) => f.(locality := f.locality.(country := text))
  }

  /** Edits to different inputs commute, and the last edit to an input wins. */
  lemma EditsCommute(f: Form, a: Input, x: string, b: Input, y: string)
    ensures a != b ==>
      (HandleInputChange(HandleInputChange(f, a, x), b, y) == HandleInputChange(HandleInputChange(f, b, y), a, x))
    ensures HandleInputChange(HandleInputChange(f, a, x), a, y) == HandleInputChange(f, a, y)
  {
    var ab := HandleInputChange(HandleInputChange(f, a, x), b, y);
    var ba := HandleInputChange(HandleInputChange(f, b, y), a, x);
    if a != b {
      FormDeterminedByInputs(ab, ba);
    }
    FormDeterminedByInputs(HandleInputChange(HandleInputChange(f, a, x), a, y), HandleInputChange(f, a, y));
  }

  /** The shared step of `addObjective` and `addResult`: a draft that is not
      blank is appended trimmed and the draft box is cleared; a blank draft
      changes nothing. */
  function AddEntry(items: seq<string>, draft: string): (r: (seq<string>, string))
    ensures Trim(draft) != "" ==> r.0 == items + [Trim(draft)] && r.1 == ""
    ensures Trim(draft) == "" ==> r == (items, draft)
    ensures forall i :: 0 <= i < |r.0| ==> r.0[i] in items || (Clean(r.0[i]) && r.0[i] != "")
  {
    var t := Trim(draft);
    if t != "" then (items + [t], "") else (items, draft)
  }

  /** `items.filter((_, i) => i !== index)`. */
  function WithoutIndex<T>(s: seq<T>, index: int): (r: seq<T>)
    ensures 0 <= index < |s| ==> r == s[..index] + s[index + 1..]
    ensures !(0 <= index < |s|) ==> r == s
    decreases |s|
  {
    if |s| == 0 then []
    else
      var rest := WithoutIndex(s[1..], index - 1);
      assert 0 < index < |s| ==> s[1..][..index - 1] == s[1..index] && s[1..][index..] == s[index + 1..];
      assert 0 < index < |s| ==> [s[0]] + s[1..index] == s[..index];
      (if index == 0 then [] else [s[0]]) + rest
  }

  lemma SpliceMultiset<T>(s: seq<T>, index: int)
    requires 0 <= index < |s|
    ensures multiset(s[..index] + s[index + 1..]) == multiset(s) - multiset{s[index]}
  {
    var before, after := s[..index], s[index + 1..];
    assert s == before + [s[index]] + after;
    assert multiset(s) == multiset(before) + multiset{s[index]} + multiset(after);
  }

  /** Removing by position removes exactly one copy, even when the list
      holds the same text twice. */
  lemma WithoutIndexMultiset<T>(s: seq<T>, index: int)
    requires 0 <= index < |s|
    ensures multiset(WithoutIndex(s, index)) == multiset(s) - multiset{s[index]}
    ensures |WithoutIndex(s, index)| == |s| - 1
  {
    SpliceMultiset(s, index);
  }

  /** Removing what was just added restores the list. */
  lemma AddThenRemove(items: seq<string>, draft: string)
    requires Trim(draft) != ""
    ensures WithoutIndex(AddEntry(items, draft).0, |items|) == items
  {
    assert (items + [Trim(draft)])[..|items|] == items;
  }

  /** `addObjective()`: a non-blank draft is appended trimmed and the box
      cleared; only the objectives and the box change. */
  function AddObjective(m: ModalState): (r: ModalState)
    ensures Trim(m.newObjective) != "" ==>
      r.form.objectives == m.form.objectives + [Trim(m.newObjective)] && r.newObjective == ""
    ensures Trim(m.newObjective) == "" ==> r == m
    ensures r == m.(form := m.form.(objectives := r.form.objectives), newObjective := r.newObjective)
  {
    var (items, draft) := AddEntry(m.form.objectives, m.newObjective);
    m.(form := m.form.(objectives := items), newObjective := draft)
  }

  /** `addResult()`, the same for the results. */
  function AddResult(m: ModalState): (r: ModalState)
    ensures Trim(m.newResult) != "" ==>
      r.form.results == m.form.results + [Trim(m.newResult)] && r.newResult == ""
    ensures Trim(m.newResult) == "" ==> r == m
    ensures r == m.(form := m.form.(results := r.form.results), newResult := r.newResult)
  {
    var (items, draft) := AddEntry(m.form.results, m.newResult);
    m.(form := m.form.(results := items), newResult := draft)
  }

  /** `removeObjective(index)`: drops the objective at `index`, keeping the
      others in order; any other index changes nothing. */
  function RemoveObjective(m: ModalState, index: int): (r: ModalState)
    ensures 0 <= index < |m.form.objectives| ==>
      r.form.objectives == m.form.objectives[..index] + m.form.objectives[index + 1..]
    ensures !(0 <= index < |m.form.objectives|) ==> r == m
    ensures r == m.(form := m.form.(objectives := r.form.objectives))
  {
    m.(form := m.form.(objectives := WithoutIndex(m.form.objectives, index)))
  }

  /** `removeResult(index)`, the same for the results. */
  function RemoveResult(m: ModalState, index: int): (r: ModalState)
    ensures 0 <= index < |m.form.results| ==>
      r.form.results == m.form.results[..index] + m.form.results[index + 1..]
    ensures !(0 <= index < |m.form.results|) ==> r == m
    ensures r == m.(form := m.form.(results := r.form.results))
  {
    m.(form := m.form.(results := WithoutIndex(m.form.results, index)))
  }

  /** Adding an objective and then removing it again restores the form. */
  lemma AddObjectiveThenRemove(m: ModalState)
    requires Trim(m.newObjective) != ""
    ensures RemoveObjective(AddObjective(m), |m.form.objectives|).form == m.form
  {
    AddThenRemove(m.form.objectives, m.newObjective);
  }

  /** `handleChangeLeader()` up to the request: the button is disabled while
      a request is in flight; a blank cedula only shows the validation
      error; otherwise the cedula, untrimmed, is sent. */
  function ChangeLeader(m: ModalState): (r: (ModalState, Option<string>))
    ensures r.1.Some? <==> !m.isLoading && Trim(m.leaderCedula) != ""
    ensures r.1.Some? ==> r.1.value == m.leaderCedula && r.0 == m.(isLoading := true, error := None)
    ensures !m.isLoading && Trim(m.leaderCedula) == "" ==> r.0 == m.(error := Some(InvalidCedulaMessage))
    ensures m.isLoading ==> r.0 == m
  {
    if m.isLoading then (m, None)
    else if Trim(m.leaderCedula) == "" then (m.(error := Some(InvalidCedulaMessage)), None)
    else (m.(isLoading := true, error := None), Some(m.leaderCedula))
  }

  /** The answer to the change-leader request. */
  function ChangeLeaderDone(m: ModalState, ok: bool): (r: ModalState)
    ensures !r.isLoading && r.form == m.form
    ensures ok ==> r.leaderCedula == "" && r.error == m.error
    ensures !ok ==> r.leaderCedula == m.leaderCedula && r.error == Some(ChangeLeaderFailedMessage)
    ensures r.newObjective == m.newObjective && r.newResult == m.newResult
  {
    if ok then m.(leaderCedula := "", isLoading := false)
    else m.(error := Some(ChangeLeaderFailedMessage), isLoading := false)
  }

  /** `handleSubmit` up to the request: the save button is disabled while a
      request is in flight; otherwise the whole form is sent. */
  function Submit(m: ModalState): (r: (ModalState, Option<Form>))
    ensures r.1.Some? <==> !m.isLoading
    ensures r.1.Some? ==> r.1.value == m.form && r.0 == m.(isLoading := true, error := None)
    ensures m.isLoading ==> r.0 == m
  {
    if m.isLoading then (m, None) else (m.(isLoading := true, error := None), Some(m.form))
  }

  /** The answer to the save request. */
  function SubmitDone(m: ModalState, ok: bool): (r: ModalState)
    ensures !r.isLoading && r.form == m.form
    ensures ok ==> r.error == m.error
    ensures !ok ==> r.error == Some(SaveFailedMessage)
    ensures r.newObjective == m.newObjective && r.newResult == m.newResult
    ensures r.leaderCedula == m.leaderCedula
  {
    if ok then m.(isLoading := false) else m.(error := Some(SaveFailedMessage), isLoading := false)
  }

  /** While one request is in flight, neither button sends another. */
  lemma OneRequestAtATime(m: ModalState)
    requires ChangeLeader(m).1.Some? || Submit(m).1.Some?
    ensures var busy := if ChangeLeader(m).1.Some? then ChangeLeader(m).0 else Submit(m).0;
      ChangeLeader(busy).1.None? && Submit(busy).1.None?
  {
  }
}

=== FILE: filtering.dfy ===
/** `Array.prototype.filter`: keeps, in their original order, the elements
    a predicate accepts. Every search box of the client is an instance. */
module Filtering {

  function Filter<T>(s: seq<T>, p: T -> bool): (r: seq<T>)
    ensures |r| <= |s|
    ensures forall x :: x in r ==> x in s && p(x)
    ensures forall i :: 0 <= i < |s| && p(s[i]) ==> s[i] in r
  {
    if |s| == 0 then []
    else
      var rest := Filter(s[1..], p);
      assert forall i :: 1 <= i < |s| ==> s[i] == s[1..][i - 1];
      (if p(s[0]) then [s[0]] else []) + rest
  }

  /** Filtering commutes with concatenation, so the kept elements appear in
      the same relative order as in the input. */
  lemma {:induction false} FilterConcat<T>(a: seq<T>, b: seq<T>, p: T -> bool)
    ensures Filter(a + b, p) == Filter(a, p) + Filter(b, p)
    decreases |a|
  {
    if |a| == 0 {
      assert a + b == b;
    } else {
      assert (a + b)[1..] == a[1..] + b;
      FilterConcat(a[1..], b, p);
    }
  }

  /** A predicate that accepts everything keeps the whole sequence. */
  lemma {:induction false} FilterKeepsAll<T>(s: seq<T>, p: T -> bool)
    requires forall i :: 0 <= i < |s| ==> p(s[i])
    ensures Filter(s, p) == s
    decreases |s|
  {
    if |s| > 0 {
      FilterKeepsAll(s[1..], p);
    }
  }

  /** The filter keeps every accepted element as often as it occurs and
      drops every other one: no element is repeated or invented. */
  lemma {:induction false} FilterCounts<T>(s: seq<T>, p: T -> bool)
    ensures forall x :: multiset(Filter(s, p))[x] == if p(x) then multiset(s)[x] else 0
    decreases |s|
  {
    if |s| > 0 {
      FilterCounts(s[1..], p);
      assert s == [s[0]] + s[1..];
      assert multiset(s) == multiset{s[0]} + multiset(s[1..]);
    }
  }
}

=== FILE: observed_species.dfy ===
/** The observed-species grid: a search box filtering the species summaries
    by name, twelve cards per page, previous/next arrows and a sliding
    window of at most five page buttons. */
module ObservedSpecies {
  import opened Text
  import opened Filtering
  import opened Pagination

  const ItemsPerPage: nat := 12

  /** One entry of `/api/observedSpecies/summary`; only the name takes part
      in the page's logic. */
  datatype SpeciesSummary = SpeciesSummary(species: string)

  function NameMatches(term: string): SpeciesSummary -> bool {
    (x: SpeciesSummary) => ContainsIgnoreCase(x.species, term)
  }

  /** `species.filter(s => s.species.toLowerCase().includes(term.toLowerCase()))`. */
  function FilterSpecies(all: seq<SpeciesSummary>, term: string): (r: seq<SpeciesSummary>)
    ensures forall x :: x in r <==> x in all && ContainsIgnoreCase(x.species, term)
    ensures forall x :: multiset(r)[x] == if ContainsIgnoreCase(x.species, term) then multiset(all)[x] else 0
    ensures term == "" ==> r == all
  {
    var p := NameMatches(term);
    FilterCounts(all, p);
    if term == "" then
      forall x | x in all
        ensures p(x)
      {
        ContainsIgnoreCaseMeaning(x.species, term);
      }
      FilterKeepsAll(all, p);
      Filter(all, p)
    else Filter(all, p)
  }

  /** The filter keeps the input order: filtering a concatenation filters
      each part. */
  lemma FilterSpeciesKeepsOrder(a: seq<SpeciesSummary>, b: seq<SpeciesSummary>, term: string)
    ensures FilterSpecies(a + b, term) == FilterSpecies(a, term) + FilterSpecies(b, term)
  {
    FilterConcat(a, b, NameMatches(term));
  }

  /** The page's state: the fetched list, the search box and the page. */
  datatype View = View(species: seq<SpeciesSummary>, searchTerm: string, currentPage: int)

  const Initial := View([], "", 1)

  function Filtered(v: View): seq<SpeciesSummary> {
    FilterSpecies(v.species, v.searchTerm)
  }

  function PageCount(v: View): nat {
    TotalPages(|Filtered(v)|, ItemsPerPage)
  }

  /** `filteredSpecies.slice(indexOfFirstItem, indexOfLastItem)`. */
  function CurrentItems(v: View): seq<SpeciesSummary> {
    Page(Filtered(v), v.currentPage, ItemsPerPage)
  }

  /** The arrows and page buttons are rendered only when `totalPages > 1`. */
  predicate ControlsVisible(v: View) {
    PageCount(v) > 1
  }

  function Window(v: View): seq<int> {
    PageWindow(v.currentPage, PageCount(v))
  }

  datatype Action =
    | Loaded(items: seq<SpeciesSummary>)
    | Search(term: string)
    | PrevClicked
    | NextClicked
    | PageClicked(page: int)

  /** One user or network event. A new list or a changed search term re-runs
      the filter effect, which resets the page to 1; setting the same term
      again does not re-run it. A disabled or hidden button does nothing. */
  function Step(v: View, a: Action): (r: View)
    ensures a.Loaded? ==> r == View(a.items, v.searchTerm, 1)
    ensures a.Search? ==> r.searchTerm == a.term && r.species == v.species
    ensures a.Search? ==> (r.currentPage == 1 || r == v)
    ensures a.Search? && a.term == v.searchTerm ==> r == v
    ensures !a.Loaded? && !a.Search? ==> r.species == v.species && r.searchTerm == v.searchTerm
    ensures a.PrevClicked? && ControlsVisible(v) && v.currentPage != 1
      ==> r == v.(currentPage := v.currentPage - 1)
    ensures a.NextClicked? && ControlsVisible(v) && v.currentPage != PageCount(v)
      ==> r == v.(currentPage := v.currentPage + 1)
    ensures a.PageClicked? && ControlsVisible(v) && a.page in Window(v)
      ==> r == v.(currentPage := a.page)
    ensures a.PrevClicked? && r != v ==> ControlsVisible(v) && r.currentPage == v.currentPage - 1
    ensures a.NextClicked? && r != v ==> ControlsVisible(v) && r.currentPage == v.currentPage + 1
    ensures a.PageClicked? && r != v ==> ControlsVisible(v) && r.currentPage == a.page && a.page in Window(v)
    ensures !ControlsVisible(v) && (a.PrevClicked? || a.NextClicked? || a.PageClicked?) ==> r == v
  {
    match a
    case Loaded(items) => View(items, v.searchTerm, 1)
    case Search(term) =>
      if term == v.searchTerm then v else v.(searchTerm := term, currentPage := 1)
    case PrevClicked =>
      if ControlsVisible(v) && v.currentPage != 1 then v.(currentPage := v.currentPage - 1) else v
    case NextClicked =>
      if ControlsVisible(v) && v.currentPage != PageCount(v) then v.(currentPage := v.currentPage + 1) else v
    case PageClicked(p) =>
      if ControlsVisible(v) && p in Window(v) then v.(currentPage := p) else v
  }

  function Run(v: View, actions: seq<Action>): View
    decreases |actions|
  {
    if |actions| == 0 then v else Run(Step(v, actions[0]), actions[1..])
  }

  /** The page is a real page: between 1 and the page count (page 1 when
      there is nothing to show). */
  predicate PageInRange(v: View) {
    1 <= v.currentPage && (v.currentPage == 1 || v.currentPage <= PageCount(v))
  }

  /** After a new list or a new search term the grid shows the first twelve
      matches. */
  lemma FilterChangeShowsFirstPage(v: View, a: Action)
    requires a.Loaded? || (a.Search? && a.term != v.searchTerm)
    ensures var r := Step(v, a);
      r.currentPage == 1 && CurrentItems(r) == Filtered(r)[..Min(ItemsPerPage, |Filtered(r)|)]
  {
  }

  /** With at most one page, the arrows and page buttons are not rendered,
      so clicks change nothing. */
  lemma HiddenControlsInert(v: View, a: Action)
    requires PageCount(v) <= 1
    requires a.PrevClicked? || a.NextClicked? || a.PageClicked?
    ensures Step(v, a) == v
  {
  }

  /** Every event keeps the current page in range: the previous arrow is
      disabled on page 1, the next arrow on the last page, and the window
      only offers existing pages. */
  lemma StepKeepsPageInRange(v: View, a: Action)
    requires PageInRange(v)
    ensures PageInRange(Step(v, a))
  {
    match a
    case Loaded(_) =>
    case Search(_) =>
    case PrevClicked =>
    case NextClicked =>
    case PageClicked(p) =>
      if ControlsVisible(v) && p in Window(v) {
        var i :| 0 <= i < |Window(v)| && Window(v)[i] == p;
      }
  }

  /** From an in-range state (the initial one is), every sequence of events
      keeps the page in range, so the grid is never empty while there are
      matches. */
  lemma {:induction false} ReachablePageInRange(v: View, actions: seq<Action>)
    requires PageInRange(v)
    ensures PageInRange(Run(v, actions))
    ensures var r := Run(v, actions); |Filtered(r)| > 0 ==> |CurrentItems(r)| > 0
    decreases |actions|
  {
    if |actions| > 0 {
      StepKeepsPageInRange(v, actions[0]);
      ReachablePageInRange(Step(v, actions[0]), actions[1..]);
    } else {
      ShownWhenInRange(v);
    }
  }

  lemma ShownWhenInRange(v: View)
    requires PageInRange(v)
    ensures |Filtered(v)| > 0 ==> |CurrentItems(v)| > 0
  {
    if |Filtered(v)| > 0 {
      assert PageCount(v) >= 1;
      PageNonEmptyIff(Filtered(v), v.currentPage, ItemsPerPage);
    }
  }

  lemma InitialInRange()
    ensures PageInRange(Initial)
  {
  }
}

=== FILE: pagination.dfy ===
/** Client-side pagination shared by the listing pages: the page count
    `Math.ceil(n / size)`, the page slice `items.slice((p - 1) * size,
    p * size)` with JavaScript's slice semantics, and the five-button page
    window of the species grid. */
module Pagination {
  import opened Arith

  function Min(a: int, b: int): int {
    if a <= b then a else b
  }

  /** `Math.ceil(n / size)`: the least number of pages of `size` items that
      hold `n` items. */
  function TotalPages(n: nat, size: nat): (r: nat)
    requires size > 0
    ensures r * size >= n
    ensures r > 0 ==> (r - 1) * size < n
  {
    var q := (n + size - 1) / size;
    var m := (n + size - 1) % size;
    assert q * size == n + size - 1 - m;
    q
  }

  /** The page count is at least two exactly when there are more items than
      one page holds. */
  lemma TwoPagesIffMoreThanOnePage(n: nat, size: nat)
    requires size > 0
    ensures TotalPages(n, size) >= 2 <==> n > size
  {
    var t := TotalPages(n, size);
    if t >= 2 {
      MulMonotone(1, t - 1, size);
    }
    if t <= 1 {
      MulMonotone(t, 1, size);
    }
  }

  /** How `Array.prototype.slice` turns a relative index into a position:
      negative values count from the end, and the result is clamped to
      `[0, len]`. */
  function RelativeIndex(i: int, len: nat): (r: nat)
    ensures r <= len
    ensures 0 <= i ==> r == Min(i, len)
    ensures i < 0 ==> r == if len + i < 0 then 0 else len + i
  {
    if i < 0 then (if len + i < 0 then 0 else len + i)
    else if i > len then len
    else i
  }

  /** `s.slice(start, end)`. */
  function JsSlice<T>(s: seq<T>, start: int, end: int): (r: seq<T>)
    ensures 0 <= start <= end ==> r == s[Min(start, |s|)..Min(end, |s|)]
    ensures |r| <= if start <= end then end - start else |s|
  {
    var from := RelativeIndex(start, |s|);
    var to := RelativeIndex(end, |s|);
    if from < to then s[from..to] else []
  }

  /** The items shown on page `page` (counted from 1). */
  function Page<T>(items: seq<T>, page: int, size: nat): (r: seq<T>)
    requires size > 0
    ensures page >= 1 ==> r == items[Min((page - 1) * size, |items|)..Min(page * size, |items|)]
    ensures page >= 1 ==> |r| <= size
  {
    if page >= 1 then MulMonotone(0, page - 1, size); JsSlice(items, (page - 1) * size, page * size)
    else JsSlice(items, (page - 1) * size, page * size)
  }

  /** Pages 1 to the page count are non-empty and the pages after it are
      empty. */
  lemma PageNonEmptyIff<T>(items: seq<T>, page: int, size: nat)
    requires size > 0 && page >= 1
    ensures |Page(items, page, size)| > 0 <==> page <= TotalPages(|items|, size)
  {
    var t := TotalPages(|items|, size);
    if page <= t {
      MulMonotone(page - 1, t - 1, size);
    } else {
      MulMonotone(t, page - 1, size);
    }
  }

  /** The page count is the quotient, plus one for a partial last page. */
  lemma TotalPagesByDivision(n: nat, size: nat)
    requires size > 0
    ensures TotalPages(n, size) == n / size + if n % size == 0 then 0 else 1
  {
    var q := n / size;
    var m := n % size;
    if m == 0 {
      DivUnique(n + size - 1, size, q, size - 1);
    } else {
      DivUnique(n + size - 1, size, q + 1, m - 1);
    }
  }

  /** Where the last page starts and ends. */
  lemma LastPageBounds(n: nat, size: nat)
    requires size > 0 && n > 0
    ensures var t, m := TotalPages(n, size), n % size;
      t >= 1
      && (m == 0 ==> (t - 1) * size == n - size && t * size == n)
      && (m != 0 ==> (t - 1) * size == n - m && t * size == n - m + size)
  {
    TotalPagesByDivision(n, size);
    var q := n / size;
    var m := n % size;
    assert n == q * size + m;
    assert (q + 1) * size == q * size + size;
    assert (q - 1) * size == q * size - size;
  }

  /** The last page holds `n % size` items, or a full page when `size`
      divides `n`. */
  lemma LastPageSize<T>(items: seq<T>, size: nat)
    requires size > 0 && |items| > 0
    ensures var last := Page(items, TotalPages(|items|, size), size);
      |last| == if |items| % size == 0 then size else |items| % size
  {
    var n, t := |items|, TotalPages(|items|, size);
    LastPageBounds(n, size);
    var lo, hi := (t - 1) * size, t * size;
    assert Page(items, t, size) == items[Min(lo, n)..Min(hi, n)];
  }

  /** Pages 1..k laid end to end. */
  function PagesUpTo<T>(items: seq<T>, size: nat, k: nat): seq<T>
    requires size > 0
  {
    if k == 0 then [] else PagesUpTo(items, size, k - 1) + Page(items, k, size)
  }

  /** Page `k` continues where page `k - 1` stopped. */
  lemma PageFollows<T>(items: seq<T>, size: nat, k: nat)
    requires size > 0 && k >= 1
    ensures items[..Min((k - 1) * size, |items|)] + Page(items, k, size) == items[..Min(k * size, |items|)]
  {
    var a, b := (k - 1) * size, k * size;
    assert b == a + size;
    MulMonotone(0, k - 1, size);
    var lo, hi := Min(a, |items|), Min(b, |items|);
    assert Page(items, k, size) == items[lo..hi];
    assert items[..lo] + items[lo..hi] == items[..hi];
  }

  /** Pages 1..k together are the first `k * size` items. */
  lemma {:induction false} PagesUpToPrefix<T>(items: seq<T>, size: nat, k: nat)
    requires size > 0
    ensures PagesUpTo(items, size, k) == items[..Min(k * size, |items|)]
  {
    if k > 0 {
      PagesUpToPrefix(items, size, k - 1);
      PageFollows(items, size, k);
    }
  }

  /** The pages 1..TotalPages partition the list: laid end to end they give
      back exactly the filtered items. */
  lemma PagesPartition<T>(items: seq<T>, size: nat)
    requires size > 0
    ensures PagesUpTo(items, size, TotalPages(|items|, size)) == items
  {
    PagesUpToPrefix(items, size, TotalPages(|items|, size));
  }

  /** First page number of the five-button window. */
  function WindowStart(current: int, total: nat): int {
    if total <= 5 then 1
    else if current <= 3 then 1
    else if current >= total - 2 then total - 4
    else current - 2
  }

  /** `Array.from({ length: Math.min(totalPages, 5) }, ...)`: the numbered
      buttons of the species grid. */
  function PageWindow(current: int, total: nat): (r: seq<int>)
    ensures |r| == Min(total, 5)
    ensures forall i :: 0 < i < |r| ==> r[i] == r[i - 1] + 1
    ensures forall i :: 0 <= i < |r| ==> 1 <= r[i] <= total
    ensures current in r <==> 1 <= current <= total
  {
    var start := WindowStart(current, total);
    var r := seq(Min(total, 5), i requires 0 <= i => start + i);
    assert 1 <= current <= total ==> r[current - start] == current;
    r
  }
}

=== FILE: palette.dfy ===
/** The decorative palettes the detail and listing pages cycle through:
    `gradients[index % gradients.length]` and `icons[index % icons.length]`. */
module Palette {
  import opened Wrappers
  import opened Arith

  const Gradients: seq<string> := [
    "from-emerald-200 via-emerald-100 to-teal-200",
    "from-teal-200 via-cyan-100 to-blue-200",
    "from-green-200 via-emerald-100 to-teal-200",
    "from-blue-200 via-teal-100 to-emerald-200",
    "from-cyan-200 via-blue-100 to-teal-200",
    "from-emerald-200 via-green-100 to-lime-200"
  ]

  datatype NatureIcon = Bird | TreePine | Leaf | FlaskConical | Target

  const NatureIcons: seq<NatureIcon> := [Bird, TreePine, Leaf, FlaskConical, Target]

  /** JavaScript's `a % b` for `b > 0`: truncating division, so the
      remainder takes the sign of the dividend (unlike Dafny's `%`). */
  function JsRemainder(a: int, b: int): (r: int)
    requires b > 0
    ensures -b < r < b
    ensures a >= 0 ==> r == a % b
    ensures a < 0 ==> r <= 0 && r == -((-a) % b)
    ensures r == 0 <==> a % b == 0
  {
    if a >= 0 then a % b
    else
      var q, m := (-a) / b, (-a) % b;
      if m == 0 then
        DivUnique(a, b, -q, 0);
        0
      else
        DivUnique(a, b, -q - 1, b - m);
        -m
  }

  /** `palette[index % palette.length]`; `None` stands for `undefined`,
      which a negative remainder reads. */
  function Pick<T>(palette: seq<T>, index: int): (r: Option<T>)
    requires |palette| > 0
    ensures index >= 0 ==> r == Some(palette[index % |palette|])
    ensures r.Some? <==> index >= 0 || index % |palette| == 0
    ensures r.Some? ==> r.value in palette
  {
    var i := JsRemainder(index, |palette|);
    if 0 <= i then Some(palette[i]) else None
  }

  /** The choice repeats with the palette's length. */
  lemma PickPeriodic<T>(palette: seq<T>, index: nat)
    requires |palette| > 0
    ensures Pick(palette, index + |palette|) == Pick(palette, index)
  {
    var n := |palette|;
    DivUnique(index + n, n, index / n + 1, index % n);
  }

  /** `getBackgroundGradient(index)`. */
  function BackgroundGradient(index: int): (r: Option<string>)
    ensures index >= 0 ==> r == Some(Gradients[index % 6])
    ensures index >= 0 && index < 6 ==> r == Some(Gradients[index])
  {
    Pick(Gradients, index)
  }

  /** `getNatureIcon(index)`. */
  function GetNatureIcon(index: int): (r: Option<NatureIcon>)
    ensures index >= 0 ==> r == Some(NatureIcons[index % 5])
    ensures index >= 0 && index < 5 ==> r == Some(NatureIcons[index])
  {
    Pick(NatureIcons, index)
  }
}

=== FILE: research_detail.dfy ===
/** The research detail page: its sampling points sorted by point number in
    a direction the user toggles, each card decorated from the palettes. */
module ResearchDetail {
  import opened Wrappers
  import opened Filtering
  import opened Sorting
  import opened Palette

  /** A sampling point card: its own identity and the number it is sorted
      by; several points may share a number. */
  datatype SamplingPointSummary = SamplingPointSummary(uuid: string, pointNumber: int)

  datatype Research = Research(samplingPoints: Option<seq<SamplingPointSummary>>)

  /** The sampling points are first listed by increasing number. */
  const InitialOrder := Asc

  function PointNumberOf(p: SamplingPointSummary): int {
    p.pointNumber
  }

  /** `research?.samplingPoints ? [...points].sort(byPointNumber) : []`. */
  function SortedSamplingPoints(research: Option<Research>, order: Direction): (r: seq<SamplingPointSummary>)
    ensures research.None? || research.value.samplingPoints.None? ==> r == []
    ensures research.Some? && research.value.samplingPoints.Some? ==>
      multiset(r) == multiset(research.value.samplingPoints.value) && SortedBy(order, PointNumberOf, r)
  {
    if research.Some? && research.value.samplingPoints.Some?
    then SortBy(order, PointNumberOf, research.value.samplingPoints.value)
    else []
  }

  /** Points sharing a number keep their payload order. */
  lemma SameNumberKeepsOrder(research: Research, order: Direction, n: int)
    requires research.samplingPoints.Some?
    ensures Filter(SortedSamplingPoints(Some(research), order), KeyIs(PointNumberOf, n))
         == Filter(research.samplingPoints.value, KeyIs(PointNumberOf, n))
  {
    SortStable(order, PointNumberOf, research.samplingPoints.value, n);
  }

  /** Points that all share one number are shown in payload order, whichever
      direction is chosen: the sort never reorders distinct points it
      cannot tell apart. */
  lemma TiedPointsKeepPayloadOrder(points: seq<SamplingPointSummary>, n: int, order: Direction)
    requires forall i :: 0 <= i < |points| ==> points[i].pointNumber == n
    ensures SortedSamplingPoints(Some(Research(Some(points))), order) == points
  {
    var k := KeyIs(PointNumberOf, n);
    var r := SortedSamplingPoints(Some(Research(Some(points))), order);
    SameNumberKeepsOrder(Research(Some(points)), order, n);
    FilterKeepsAll(points, k);
    forall i | 0 <= i < |r|
      ensures k(r[i])
    {
      assert r[i] in multiset(points);
    }
    FilterKeepsAll(r, k);
  }

  /** With distinct point numbers, toggling from the initial order shows the
      same cards read backwards. */
  lemma ToggleReverses(research: Research)
    requires research.samplingPoints.Some?
    requires DistinctKeys(PointNumberOf, research.samplingPoints.value)
    ensures SortedSamplingPoints(Some(research), Toggle(InitialOrder))
         == Reverse(SortedSamplingPoints(Some(research), InitialOrder))
  {
    DescIsReversedAsc(PointNumberOf, research.samplingPoints.value);
  }

  /** The icon of the sampling-point card at `index` in the sorted list. */
  function PointIcon(index: nat): (icon: NatureIcon)
    ensures icon == NatureIcons[index % 5]
    ensures icon in NatureIcons
  {
    GetNatureIcon(index).value
  }

  /** Neighbouring cards never share an icon, and the icons repeat every
      five cards. */
  lemma NeighbourIconsDiffer(index: nat)
    ensures PointIcon(index) != PointIcon(index + 1)
    ensures PointIcon(index + 5) == PointIcon(index)
  {
    PickPeriodic(NatureIcons, index);
    var k := index % 5;
    assert (index + 1) % 5 == if k == 4 then 0 else k + 1;
  }
}

=== FILE: research_list.dfy ===
/** The research list: a search box filtering researches by name, six cards
    per page with clamped previous/next moves and one button per page, the
    role badge of each card, and the choice of endpoint. */
module ResearchList {
  import opened Wrappers
  import opened Text
  import opened Filtering
  import opened Pagination
  import opened Users
  import opened Palette

  const ResearchesPerPage: nat := 6

  const AllResearchEndpoint := "/api/research"
  const MyResearchEndpoint := "/api/research?myRole=all"

  /** `user?.role === 'admin' ? '/api/research' : '/api/research?myRole=all'`. */
  function ResearchEndpoint(user: Option<User>): (e: string)
    ensures e == AllResearchEndpoint <==> user.Some? && user.value.role == Some("admin")
    ensures e == AllResearchEndpoint || e == MyResearchEndpoint
  {
    if user.Some? && user.value.role == Some("admin") then AllResearchEndpoint else MyResearchEndpoint
  }

  datatype TeamMember = TeamMember(uuid: string)

  /** The fields of a research card that take part in the page's logic. */
  datatype ResearchSummary = ResearchSummary(name: string, leaderUuid: string, team: seq<TeamMember>)

  function NameMatches(term: string): ResearchSummary -> bool {
    (r: ResearchSummary) => ContainsIgnoreCase(r.name, term)
  }

  /** `researches.filter(r => r.name.toLowerCase().includes(term.toLowerCase()))`. */
  function FilterResearches(all: seq<ResearchSummary>, term: string): (r: seq<ResearchSummary>)
    ensures forall x :: x in r <==> x in all && ContainsIgnoreCase(x.name, term)
    ensures forall x :: multiset(r)[x] == if ContainsIgnoreCase(x.name, term) then multiset(all)[x] else 0
    ensures term == "" ==> r == all
  {
    var p := NameMatches(term);
    FilterCounts(all, p);
    if term == "" then
      forall x | x in all
        ensures p(x)
      {
        ContainsIgnoreCaseMeaning(x.name, term);
      }
      FilterKeepsAll(all, p);
      Filter(all, p)
    else Filter(all, p)
  }

  /** The filter keeps the input order. */
  lemma FilterResearchesKeepsOrder(a: seq<ResearchSummary>, b: seq<ResearchSummary>, term: string)
    ensures FilterResearches(a + b, term) == FilterResearches(a, term) + FilterResearches(b, term)
  {
    FilterConcat(a, b, NameMatches(term));
  }

  /** `research.leader.uuid === user?.uuid`. */
  predicate IsLeader(r: ResearchSummary, user: Option<User>)
    ensures IsLeader(r, user) ==> user.Some? && user.value.uuid in People(r)
  {
    user.Some? && r.leaderUuid == user.value.uuid
  }

  /** `research.team.some(member => member.uuid === user?.uuid)`. */
  predicate IsTeamMember(r: ResearchSummary, user: Option<User>)
    ensures IsTeamMember(r, user) <==> user.Some? && user.value.uuid in TeamUuids(r.team)
  {
    user.Some? && exists m :: m in r.team && m.uuid == user.value.uuid
  }

  datatype Badge = LeaderBadge | MemberBadge | OtherBadge

  /** The card badge: leader first, then team member, otherwise "other". */
  function BadgeFor(r: ResearchSummary, user: Option<User>): (b: Badge)
    ensures b == LeaderBadge <==> IsLeader(r, user)
    ensures b == MemberBadge <==> !IsLeader(r, user) && IsTeamMember(r, user)
    ensures b == OtherBadge <==> !IsLeader(r, user) && !IsTeamMember(r, user)
  {
    if IsLeader(r, user) then LeaderBadge
    else if IsTeamMember(r, user) then MemberBadge
    else OtherBadge
  }

  /** `research.team.length + 1`: the team plus the leader. */
  function MemberCount(r: ResearchSummary): (n: nat)
    ensures n >= 1 && n >= |People(r)|
  {
    TeamUuidsAtMost(r.team);
    |r.team| + 1
  }

  function TeamUuids(team: seq<TeamMember>): (ids: set<string>)
    ensures forall id :: id in ids <==> exists m :: m in team && m.uuid == id
  {
    set m | m in team :: m.uuid
  }

  /** The people on a research: its leader and its team, by uuid. */
  function People(r: ResearchSummary): set<string> {
    {r.leaderUuid} + TeamUuids(r.team)
  }

  predicate DistinctMembers(team: seq<TeamMember>) {
    forall i, j :: 0 <= i < j < |team| ==> team[i].uuid != team[j].uuid
  }

  lemma TeamUuidsCons(team: seq<TeamMember>)
    requires |team| > 0
    ensures TeamUuids(team) == TeamUuids(team[1..]) + {team[0].uuid}
  {
    assert team == [team[0]] + team[1..];
  }

  lemma {:induction false} DistinctTeamSize(team: seq<TeamMember>)
    requires DistinctMembers(team)
    ensures |TeamUuids(team)| == |team|
    decreases |team|
  {
    if |team| > 0 {
      var rest := team[1..];
      assert DistinctMembers(rest) by {
        assert forall i :: 0 <= i < |rest| ==> rest[i] == team[i + 1];
      }
      DistinctTeamSize(rest);
      TeamUuidsCons(team);
      forall m | m in rest
        ensures m.uuid != team[0].uuid
      {
        var k :| 0 <= k < |rest| && rest[k] == m;
        assert team[k + 1] == m;
      }
      assert team[0].uuid !in TeamUuids(rest);
    }
  }

  /** The displayed member count is the number of people on the research
      when the leader is not also listed in the team and nobody is listed
      twice; otherwise it counts someone twice. */
  lemma MemberCountCountsPeople(r: ResearchSummary)
    ensures MemberCount(r) >= |People(r)|
    ensures DistinctMembers(r.team) && r.leaderUuid !in TeamUuids(r.team)
      <==> MemberCount(r) == |People(r)|
  {
    TeamUuidsAtMost(r.team);
    if DistinctMembers(r.team) && r.leaderUuid !in TeamUuids(r.team) {
      DistinctTeamSize(r.team);
    } else if r.leaderUuid in TeamUuids(r.team) {
      assert People(r) == TeamUuids(r.team);
    } else {
      DuplicateShrinksTeamUuids(r.team);
    }
  }

  /** A uuid listed twice makes the set of uuids smaller than the team. */
  lemma {:induction false} DuplicateShrinksTeamUuids(team: seq<TeamMember>)
    requires !DistinctMembers(team)
    ensures |TeamUuids(team)| < |team|
    decreases |team|
  {
    var rest := team[1..];
    var i, j :| 0 <= i < j < |team| && team[i].uuid == team[j].uuid;
    TeamUuidsCons(team);
    if team[0].uuid in TeamUuids(rest) {
      TeamUuidsAtMost(rest);
      assert TeamUuids(team) == TeamUuids(rest);
    } else {
      assert team[j] in rest;
      assert rest[i - 1].uuid == rest[j - 1].uuid;
      DuplicateShrinksTeamUuids(rest);
    }
  }

  lemma {:induction false} TeamUuidsAtMost(team: seq<TeamMember>)
    ensures |TeamUuids(team)| <= |team|
    decreases |team|
  {
    if |team| > 0 {
      TeamUuidsAtMost(team[1..]);
      TeamUuidsCons(team);
    }
  }

  function Max(a: int, b: int): int {
    if a >= b then a else b
  }

  /** `currentPage > 1 ? currentPage - 1 : 1`. */
  function PrevPage(current: int): (r: int)
    ensures r == Max(current - 1, 1)
    ensures 1 <= current ==> r <= current
  {
    if current > 1 then current - 1 else 1
  }

  /** `currentPage < totalPages ? currentPage + 1 : totalPages`. */
  function NextPage(current: int, total: nat): (r: int)
    ensures r == Min(current + 1, total)
    ensures 1 <= current <= total ==> 1 <= r <= total && current <= r
  {
    if current < total then current + 1 else total
  }

  /** From a page in `[1, total]`, both arrows lead to a page in
      `[1, total]`, never further than one step away. */
  lemma PageMovesStayInRange(current: int, total: nat)
    requires 1 <= current <= total
    ensures 1 <= PrevPage(current) <= total && current - 1 <= PrevPage(current) <= current
    ensures 1 <= NextPage(current, total) <= total && current <= NextPage(current, total) <= current + 1
  {
  }

  /** `Array.from({ length: totalPages }, (_, i) => i + 1)`. */
  function PageNumbers(total: nat): (r: seq<int>)
    ensures |r| == total
    ensures forall i :: 0 <= i < |r| ==> r[i] == i + 1
    ensures forall p :: p in r <==> 1 <= p <= total
  {
    var r := seq(total, i requires 0 <= i => i + 1);
    forall p | 1 <= p <= total
      ensures p in r
    {
      assert r[p - 1] == p;
    }
    r
  }

  datatype View = View(researches: seq<ResearchSummary>, searchTerm: string, currentPage: int)

  const Initial := View([], "", 1)

  function Filtered(v: View): seq<ResearchSummary> {
    FilterResearches(v.researches, v.searchTerm)
  }

  function PageCount(v: View): nat {
    TotalPages(|Filtered(v)|, ResearchesPerPage)
  }

  function CurrentResearches(v: View): seq<ResearchSummary> {
    Page(Filtered(v), v.currentPage, ResearchesPerPage)
  }

  /** `filteredResearches.length > researchesPerPage`. */
  predicate ControlsVisible(v: View) {
    |Filtered(v)| > ResearchesPerPage
  }

  /** The controls appear exactly when there is more than one page. */
  lemma ControlsVisibleIffSeveralPages(v: View)
    ensures ControlsVisible(v) <==> PageCount(v) >= 2
  {
    TwoPagesIffMoreThanOnePage(|Filtered(v)|, ResearchesPerPage);
  }

  datatype Action =
    | Loaded(items: seq<ResearchSummary>)
    | Search(term: string)
    | PrevClicked
    | NextClicked
    | PageClicked(page: int)

  /** One event; disabled or hidden buttons do nothing, and a new list or a
      changed search term resets the page to 1. */
  function Step(v: View, a: Action): (r: View)
    ensures a.Loaded? ==> r == View(a.items, v.searchTerm, 1)
    ensures a.Search? ==> r.searchTerm == a.term && r.researches == v.researches
    ensures a.Search? ==> (r.currentPage == 1 || r == v)
    ensures a.Search? && a.term == v.searchTerm ==> r == v
    ensures !a.Loaded? && !a.Search? ==> r.researches == v.researches && r.searchTerm == v.searchTerm
    ensures a.PrevClicked? && ControlsVisible(v) && v.currentPage != 1
      ==> r == v.(currentPage := PrevPage(v.currentPage))
    ensures a.NextClicked? && ControlsVisible(v) && v.currentPage != PageCount(v)
      ==> r == v.(currentPage := NextPage(v.currentPage, PageCount(v)))
    ensures a.PageClicked? && ControlsVisible(v) && a.page in PageNumbers(PageCount(v))
      ==> r == v.(currentPage := a.page)
    ensures a.PrevClicked? && r != v ==> ControlsVisible(v) && r.currentPage == Max(v.currentPage - 1, 1)
    ensures a.NextClicked? && r != v ==> ControlsVisible(v) && r.currentPage == Min(v.currentPage + 1, PageCount(v))
    ensures a.PageClicked? && r != v ==> ControlsVisible(v) && r.currentPage == a.page && 1 <= a.page <= PageCount(v)
    ensures !ControlsVisible(v) && (a.PrevClicked? || a.NextClicked? || a.PageClicked?) ==> r == v
  {
    match a
    case Loaded(items) => View(items, v.searchTerm, 1)
    case Search(term) =>
      if term == v.searchTerm then v else v.(searchTerm := term, currentPage := 1)
    case PrevClicked =>
      if ControlsVisible(v) && v.currentPage != 1 then v.(currentPage := PrevPage(v.currentPage)) else v
    case NextClicked =>
      if ControlsVisible(v) && v.currentPage != PageCount(v)
      then v.(currentPage := NextPage(v.currentPage, PageCount(v))) else v
    case PageClicked(p) =>
      if ControlsVisible(v) && p in PageNumbers(PageCount(v)) then v.(currentPage := p) else v
  }

  function Run(v: View, actions: seq<Action>): View
    decreases |actions|
  {
    if |actions| == 0 then v else Run(Step(v, actions[0]), actions[1..])
  }

  predicate PageInRange(v: View) {
    1 <= v.currentPage && (v.currentPage == 1 || v.currentPage <= PageCount(v))
  }

  /** After a new list or a new search term the list shows the first six
      matches. */
  lemma FilterChangeShowsFirstPage(v: View, a: Action)
    requires a.Loaded? || (a.Search? && a.term != v.searchTerm)
    ensures var r := Step(v, a);
      r.currentPage == 1 && CurrentResearches(r) == Filtered(r)[..Min(ResearchesPerPage, |Filtered(r)|)]
  {
  }

  lemma StepKeepsPageInRange(v: View, a: Action)
    requires PageInRange(v)
    ensures PageInRange(Step(v, a))
  {
  }

  /** From an in-range state (the initial one is), every sequence of events
      keeps the page in range, and a non-empty result list always shows a
      non-empty page. */
  lemma {:induction false} ReachablePageInRange(v: View, actions: seq<Action>)
    requires PageInRange(v)
    ensures PageInRange(Run(v, actions))
    ensures var r := Run(v, actions); |Filtered(r)| > 0 ==> |CurrentResearches(r)| > 0
    decreases |actions|
  {
    if |actions| > 0 {
      StepKeepsPageInRange(v, actions[0]);
      ReachablePageInRange(Step(v, actions[0]), actions[1..]);
    } else if |Filtered(v)| > 0 {
      PageNonEmptyIff(Filtered(v), v.currentPage, ResearchesPerPage);
    }
  }

  lemma InitialInRange()
    ensures PageInRange(Initial)
  {
  }

  /** The icon and gradient of the card at `index` on the current page. */
  datatype CardLook = CardLook(icon: NatureIcon, gradient: string)

  function CardAt(index: nat): (c: CardLook)
    ensures c.icon == NatureIcons[index % 5] && c.gradient == Gradients[index % 6]
  {
    CardLook(GetNatureIcon(index).value, BackgroundGradient(index).value)
  }

  /** The six cards of a page get six different gradients, and the first
      and the sixth share an icon. */
  lemma PageCardsLook(i: nat, j: nat)
    requires i < j < ResearchesPerPage
    ensures CardAt(i).gradient != CardAt(j).gradient
    ensures CardAt(i).icon == CardAt(j).icon <==> i == 0 && j == 5
  {
  }
}

=== FILE: sampling_point_detail.dfy ===
/** The sampling-point detail page: its samples sorted by date in a
    direction the user toggles, the species search applied to each sample's
    observations, the per-sample counts, and the summary statistics. */
module SamplingPointDetail {
  import opened Wrappers
  import opened Text
  import opened Filtering
  import opened Sorting

  /** One observation; each field may be missing from the payload. */
  datatype SpeciesEntry = SpeciesEntry(
    species: Option<string>,
    activity: Option<string>,
    substrate: Option<string>,
    abundance: Option<int>)

  /** A sample; `date` is the parsed timestamp of its `date` field. */
  datatype Sample = Sample(date: int, observedSpecies: Option<seq<SpeciesEntry>>)

  datatype SamplingPoint = SamplingPoint(samples: Option<seq<Sample>>)

  /** The samples are first listed newest first. */
  const InitialOrder := Desc

  function DateOf(s: Sample): int {
    s.date
  }

  /** `samplingPoint?.samples ? [...samples].sort(byDate) : []`. */
  function SortedSamples(point: Option<SamplingPoint>, order: Direction): (r: seq<Sample>)
    ensures point.None? || point.value.samples.None? ==> r == []
    ensures point.Some? && point.value.samples.Some? ==>
      multiset(r) == multiset(point.value.samples.value) && SortedBy(order, DateOf, r)
  {
    if point.Some? && point.value.samples.Some? then SortBy(order, DateOf, point.value.samples.value)
    else []
  }

  /** Samples taken at the same instant keep their payload order. */
  lemma SameDateKeepsOrder(point: SamplingPoint, order: Direction, date: int)
    requires point.samples.Some?
    ensures Filter(SortedSamples(Some(point), order), KeyIs(DateOf, date))
         == Filter(point.samples.value, KeyIs(DateOf, date))
  {
    SortStable(order, DateOf, point.samples.value, date);
  }

  /** When no two samples share a date, the toggle shows the same list
      read backwards. */
  lemma ToggleReverses(point: SamplingPoint)
    requires point.samples.Some? && DistinctKeys(DateOf, point.samples.value)
    ensures SortedSamples(Some(point), Toggle(Asc)) == Reverse(SortedSamples(Some(point), Asc))
  {
    DescIsReversedAsc(DateOf, point.samples.value);
  }

  /** `field?.toLowerCase().includes(term.toLowerCase())`: a missing field
      never matches. */
  predicate FieldMatches(field: Option<string>, term: string) {
    field.Some? && ContainsIgnoreCase(field.value, term)
  }

  predicate EntryMatches(e: SpeciesEntry, term: string) {
    FieldMatches(e.species, term) || FieldMatches(e.activity, term) || FieldMatches(e.substrate, term)
  }

  function MatchesTerm(term: string): SpeciesEntry -> bool {
    (e: SpeciesEntry) => EntryMatches(e, term)
  }

  /** `getFilteredSpecies(observedSpecies)`: without a search term every
      observation is shown, otherwise those whose name, activity or
      substrate contains the term, ignoring case. */
  function FilteredSpecies(entries: Option<seq<SpeciesEntry>>, term: string): (r: seq<SpeciesEntry>)
    ensures term == "" ==> r == entries.GetOr([])
    ensures term != "" ==> forall e :: e in r <==> e in entries.GetOr([]) && EntryMatches(e, term)
    ensures |r| <= |entries.GetOr([])|
  {
    if term == "" then entries.GetOr([])
    else Filter(entries.GetOr([]), MatchesTerm(term))
  }

  /** The shown observations keep their recorded order. */
  lemma FilteredSpeciesKeepsOrder(a: seq<SpeciesEntry>, b: seq<SpeciesEntry>, term: string)
    ensures FilteredSpecies(Some(a + b), term) == FilteredSpecies(Some(a), term) + FilteredSpecies(Some(b), term)
  {
    if term != "" {
      FilterConcat(a, b, MatchesTerm(term));
    }
  }

  /** A non-empty term that occurs in one of an entry's fields keeps it. */
  lemma OccurrenceKeepsEntry(e: SpeciesEntry, term: string, i: int)
    requires term != "" && e.species.Some?
    requires OccursAt(Lower(e.species.value), Lower(term), i)
    ensures e in FilteredSpecies(Some([e]), term)
  {
    ContainsIgnoreCaseMeaning(e.species.value, term);
  }

  /** `species.abundance || 0`. */
  function Abundance(e: SpeciesEntry): int {
    e.abundance.GetOr(0)
  }

  /** `entries.reduce((total, species) => total + (species.abundance || 0), 0)`. */
  function SumAbundance(entries: seq<SpeciesEntry>): (total: int)
    ensures NonNegativeAbundances(entries) ==> total >= 0
    ensures NonNegativeAbundances(entries) && |entries| > 0 ==> total >= Abundance(entries[0])
    decreases |entries|
  {
    if |entries| == 0 then 0
    else
      assert NonNegativeAbundances(entries) ==> NonNegativeAbundances(entries[1..]) by {
        assert forall i :: 0 <= i < |entries| - 1 ==> entries[1..][i] == entries[i + 1];
      }
      Abundance(entries[0]) + SumAbundance(entries[1..])
  }

  lemma {:induction false} SumAbundanceConcat(a: seq<SpeciesEntry>, b: seq<SpeciesEntry>)
    ensures SumAbundance(a + b) == SumAbundance(a) + SumAbundance(b)
    decreases |a|
  {
    if |a| == 0 {
      assert a + b == b;
    } else {
      assert (a + b)[1..] == a[1..] + b;
      SumAbundanceConcat(a[1..], b);
    }
  }

  predicate NonNegativeAbundances(entries: seq<SpeciesEntry>) {
    forall i :: 0 <= i < |entries| ==> Abundance(entries[i]) >= 0
  }

  /** Leaving out observations with non-negative abundance does not add
      individuals. */
  lemma {:induction false} FilterSumAtMost(entries: seq<SpeciesEntry>, p: SpeciesEntry -> bool)
    requires NonNegativeAbundances(entries)
    ensures SumAbundance(Filter(entries, p)) <= SumAbundance(entries)
    decreases |entries|
  {
    if |entries| > 0 {
      var rest := entries[1..];
      assert NonNegativeAbundances(rest) by {
        assert forall i :: 0 <= i < |rest| ==> rest[i] == entries[i + 1];
      }
      FilterSumAtMost(rest, p);
      SumAbundanceConcat(if p(entries[0]) then [entries[0]] else [], Filter(rest, p));
    }
  }

  /** The species and individual counts shown on a sample's card. */
  datatype CardCounts = CardCounts(species: nat, individuals: int)

  function SampleCounts(sample: Sample, term: string): (c: CardCounts)
    ensures c.species <= |sample.observedSpecies.GetOr([])|
    ensures term == "" ==> c == CardCounts(|sample.observedSpecies.GetOr([])|, SumAbundance(sample.observedSpecies.GetOr([])))
  {
    var shown := FilteredSpecies(sample.observedSpecies, term);
    CardCounts(|shown|, SumAbundance(shown))
  }

  /** With non-negative abundances, a search never raises the counts on a
      card above the unfiltered ones. */
  lemma SearchNarrowsCounts(sample: Sample, term: string)
    requires NonNegativeAbundances(sample.observedSpecies.GetOr([]))
    ensures SampleCounts(sample, term).individuals <= SampleCounts(sample, "").individuals
  {
    if term != "" {
      FilterSumAtMost(sample.observedSpecies.GetOr([]), MatchesTerm(term));
    }
  }

  /** The observations of a sample, `[]` when it has none. */
  function Observations(s: Sample): seq<SpeciesEntry> {
    s.observedSpecies.GetOr([])
  }

  /** Every observation of the point, sample after sample. */
  function AllEntries(samples: seq<Sample>): seq<SpeciesEntry>
    decreases |samples|
  {
    if |samples| == 0 then [] else Observations(samples[0]) + AllEntries(samples[1..])
  }

  /** `samples.reduce((t, s) => t + (s.observedSpecies?.length || 0), 0)`. */
  function CountObservations(samples: seq<Sample>): (n: nat)
    ensures n == |AllEntries(samples)|
    decreases |samples|
  {
    if |samples| == 0 then 0
    else
      AllEntriesSnoc(samples);
      CountObservations(samples[..|samples| - 1]) + |Observations(samples[|samples| - 1])|
  }

  /** The nested `forEach` adding each `species.species` to a `Set`; a
      name that is absent or `null` is collected as the single value
      `None`. */
  function CollectNames(samples: seq<Sample>): (names: set<Option<string>>)
    ensures names == NamesOf(AllEntries(samples))
    decreases |samples|
  {
    if |samples| == 0 then
      assert NamesOf([]) == {};
      {}
    else
      var init, last := samples[..|samples| - 1], Observations(samples[|samples| - 1]);
      AllEntriesSnoc(samples);
      NamesOfConcat(AllEntries(init), last);
      CollectNames(init) + NamesOf(last)
  }

  function NamesOf(entries: seq<SpeciesEntry>): (names: set<Option<string>>)
    ensures forall n :: n in names <==> exists e :: e in entries && e.species == n
  {
    set e | e in entries :: e.species
  }

  /** The nested `reduce` summing every abundance. */
  function CountIndividuals(samples: seq<Sample>): (total: int)
    ensures total == SumAbundance(AllEntries(samples))
    decreases |samples|
  {
    if |samples| == 0 then 0
    else
      var init, last := samples[..|samples| - 1], Observations(samples[|samples| - 1]);
      AllEntriesSnoc(samples);
      SumAbundanceConcat(AllEntries(init), last);
      CountIndividuals(init) + SumAbundance(last)
  }

  lemma {:induction false} AllEntriesSnoc(samples: seq<Sample>)
    requires |samples| > 0
    ensures AllEntries(samples) == AllEntries(samples[..|samples| - 1]) + Observations(samples[|samples| - 1])
    decreases |samples|
  {
    var n := |samples|;
    var init, last := samples[..n - 1], Observations(samples[n - 1]);
    if n == 1 {
      assert init == [] && samples[1..] == [];
    } else {
      var tail := samples[1..];
      AllEntriesSnoc(tail);
      assert tail[..|tail| - 1] == init[1..];
      assert tail[|tail| - 1] == samples[n - 1];
      assert init[0] == samples[0];
      calc {
        AllEntries(samples);
        Observations(samples[0]) + AllEntries(tail);
        Observations(samples[0]) + (AllEntries(init[1..]) + last);
        (Observations(init[0]) + AllEntries(init[1..])) + last;
        AllEntries(init) + last;
      }
    }
  }

  lemma NamesOfConcat(a: seq<SpeciesEntry>, b: seq<SpeciesEntry>)
    ensures NamesOf(a + b) == NamesOf(a) + NamesOf(b)
  {
    forall e | e in a + b
      ensures e in a || e in b
    {
    }
  }

  lemma NamesOfCons(entries: seq<SpeciesEntry>)
    requires |entries| > 0
    ensures NamesOf(entries) == NamesOf(entries[1..]) + {entries[0].species}
  {
    assert entries == [entries[0]] + entries[1..];
  }

  lemma {:induction false} NamesAtMost(entries: seq<SpeciesEntry>)
    ensures |NamesOf(entries)| <= |entries|
    decreases |entries|
  {
    if |entries| > 0 {
      NamesAtMost(entries[1..]);
      NamesOfCons(entries);
    } else {
      assert NamesOf(entries) == {};
    }
  }

  /** The figures of the summary panel; the rounded temperature and
      humidity averages are not modelled. */
  datatype Statistics = Statistics(
    totalSamples: nat,
    totalSpecies: nat,
    uniqueSpecies: nat,
    totalIndividuals: int)

  /** `getStatistics()`: nothing before the point is loaded; a point without
      a sample list counts as empty. */
  function GetStatistics(point: Option<SamplingPoint>): (r: Option<Statistics>)
    ensures r.None? <==> point.None?
    ensures r.Some? ==> var samples := point.value.samples.GetOr([]);
      && r.value.totalSamples == |samples|
      && r.value.totalSpecies == |AllEntries(samples)|
      && r.value.uniqueSpecies == |NamesOf(AllEntries(samples))|
      && r.value.totalIndividuals == SumAbundance(AllEntries(samples))
      && r.value.uniqueSpecies <= r.value.totalSpecies
  {
    if point.None? then None
    else
      var samples := point.value.samples.GetOr([]);
      NamesAtMost(AllEntries(samples));
      Some(Statistics(|samples|, CountObservations(samples), |CollectNames(samples)|, CountIndividuals(samples)))
  }

  function CardSum(samples: seq<Sample>): int
    decreases |samples|
  {
    if |samples| == 0 then 0 else SampleCounts(samples[0], "").individuals + CardSum(samples[1..])
  }

  /** With no search term, the individuals shown on the cards add up to the
      panel's total. */
  lemma {:induction false} CardsAddUpToTotal(samples: seq<Sample>)
    ensures CardSum(samples) == SumAbundance(AllEntries(samples))
    decreases |samples|
  {
    if |samples| > 0 {
      CardsAddUpToTotal(samples[1..]);
      SumAbundanceConcat(Observations(samples[0]), AllEntries(samples[1..]));
    }
  }
}

=== FILE: session.dfy ===
/** The authentication context: in-memory `{user, token, isAuthenticated,
    isLoading}` plus the one persisted credentials slot, with `login`,
    `logout`, `authenticateUser` (run once when the provider mounts) and
    `updateUser` as pure transitions. The clock `Date.now()` is a parameter. */
module Session {
  import opened Wrappers
  import opened Users

  /** The login page stores an expiry six hours after the login time. */
  const SessionLifetimeMillis: int := 21600000

  /** What `localStorage` holds under the credentials key. */
  datatype Credentials = Credentials(user: User, token: string, expirationDate: int)

  datatype AuthState = AuthState(
    user: Option<User>,
    token: Option<string>,
    isAuthenticated: bool,
    isLoading: bool,
    stored: Option<Credentials>)

  /** The provider's state when it mounts, before `authenticateUser` runs;
      `stored` is whatever an earlier page load left in storage. */
  function Mount(stored: Option<Credentials>): (s: AuthState)
    ensures s.stored == stored && s.isLoading
    ensures !s.isAuthenticated && s.user.None? && s.token.None?
  {
    AuthState(None, None, false, true, stored)
  }

  function Login(s: AuthState, user: User, token: string, expirationDate: int): (r: AuthState)
    ensures r.stored == Some(Credentials(user, token, expirationDate))
    ensures r.user == Some(user) && r.token == Some(token) && r.isAuthenticated
    ensures r.isLoading == s.isLoading
  {
    AuthState(Some(user), Some(token), true, s.isLoading, Some(Credentials(user, token, expirationDate)))
  }

  function Logout(s: AuthState): (r: AuthState)
    ensures r.user.None? && r.token.None? && !r.isAuthenticated && r.stored.None?
    ensures r.isLoading == s.isLoading
  {
    s.(user := None, token := None, isAuthenticated := false, stored := None)
  }

  /** Logging out twice is the same as logging out once. */
  lemma LogoutIdempotent(s: AuthState)
    ensures Logout(Logout(s)) == Logout(s)
  {
  }

  /** `Date.now() > expirationDate`. */
  predicate IsTokenExpired(expirationDate: int, now: int)
    ensures IsTokenExpired(expirationDate, now) <==> now >= expirationDate + 1
  {
    now > expirationDate
  }

  /** Once expired, a token stays expired as the clock moves on. */
  lemma ExpiredStaysExpired(expirationDate: int, now: int, later: int)
    requires IsTokenExpired(expirationDate, now) && now <= later
    ensures IsTokenExpired(expirationDate, later)
  {
  }

  /** A token is still valid at the very millisecond it expires. */
  lemma ExpiryBoundary(expirationDate: int)
    ensures !IsTokenExpired(expirationDate, expirationDate)
    ensures IsTokenExpired(expirationDate, expirationDate + 1)
  {
  }

  function AuthenticateUser(s: AuthState, now: int): (r: AuthState)
    ensures !r.isLoading
    ensures s.stored.None? ==> r == s.(isLoading := false)
    ensures s.stored.Some? && IsTokenExpired(s.stored.value.expirationDate, now)
      ==> r == Logout(s).(isLoading := false)
    ensures s.stored.Some? && !IsTokenExpired(s.stored.value.expirationDate, now)
      ==> (r.isAuthenticated && r.stored == s.stored
           && r.user == Some(s.stored.value.user) && r.token == Some(s.stored.value.token))
  {
    match s.stored
    case None => s.(isLoading := false)
    case Some(c) =>
      var s' := if IsTokenExpired(c.expirationDate, now) then Logout(s)
                else s.(user := Some(c.user), token := Some(c.token), isAuthenticated := true);
      s'.(isLoading := false)
  }

  /** Replaces the user in memory and in storage when credentials are
      stored; the token and the expiry stay as they were. */
  function UpdateUser(s: AuthState, user: User): (r: AuthState)
    ensures s.stored.None? ==> r == s
    ensures s.stored.Some? ==> (r.user == Some(user) && r.stored.Some?
      && r.stored.value == s.stored.value.(user := user)
      && r.token == s.token && r.isAuthenticated == s.isAuthenticated && r.isLoading == s.isLoading)
  {
    match s.stored
    case None => s
    case Some(c) => s.(user := Some(user), stored := Some(c.(user := user)))
  }

  /** The provider after its mount-time `authenticateUser`. */
  function Boot(stored: Option<Credentials>, now: int): AuthState {
    AuthenticateUser(Mount(stored), now)
  }

  datatype Event =
    | LoginEvent(user: User, token: string, expirationDate: int)
    | LogoutEvent
    | AuthenticateEvent(now: int)
    | UpdateUserEvent(user: User)

  function Apply(s: AuthState, e: Event): AuthState {
    match e
    case LoginEvent(u, t, x) => Login(s, u, t, x)
    case LogoutEvent => Logout(s)
    case AuthenticateEvent(now) => AuthenticateUser(s, now)
    case UpdateUserEvent(u) => UpdateUser(s, u)
  }

  function Run(s: AuthState, events: seq<Event>): AuthState
    decreases |events|
  {
    if |events| == 0 then s else Run(Apply(s, events[0]), events[1..])
  }

  /** The session invariant: authenticated exactly when a token is held,
      exactly when credentials are stored, exactly when a user is known,
      and the in-memory user and token are the stored ones. */
  ghost predicate Consistent(s: AuthState) {
    && !s.isLoading
    && (s.isAuthenticated <==> s.token.Some?)
    && (s.isAuthenticated <==> s.stored.Some?)
    && (s.isAuthenticated <==> s.user.Some?)
    && (s.stored.Some? ==> s.user == Some(s.stored.value.user) && s.token == Some(s.stored.value.token))
  }

  lemma BootConsistent(stored: Option<Credentials>, now: int)
    ensures Consistent(Boot(stored, now))
  {
  }

  lemma ApplyPreservesConsistent(s: AuthState, e: Event)
    requires Consistent(s)
    ensures Consistent(Apply(s, e))
  {
  }

  /** Every state reachable after mounting satisfies the invariant. */
  lemma {:induction false} ReachableConsistent(stored: Option<Credentials>, now: int, events: seq<Event>)
    ensures Consistent(Run(Boot(stored, now), events))
  {
    BootConsistent(stored, now);
    RunPreservesConsistent(Boot(stored, now), events);
  }

  lemma {:induction false} RunPreservesConsistent(s: AuthState, events: seq<Event>)
    requires Consistent(s)
    ensures Consistent(Run(s, events))
    decreases |events|
  {
    if |events| > 0 {
      ApplyPreservesConsistent(s, events[0]);
      RunPreservesConsistent(Apply(s, events[0]), events[1..]);
    }
  }

  /** Even before the mount-time check (while storage may still hold
      credentials the memory does not reflect), `isAuthenticated` and the
      token go together. */
  lemma {:induction false} TokenTracksAuthentication(s: AuthState, events: seq<Event>)
    requires s.isAuthenticated <==> s.token.Some?
    ensures var r := Run(s, events); r.isAuthenticated <==> r.token.Some?
    decreases |events|
  {
    if |events| > 0 {
      TokenTracksAuthentication(Apply(s, events[0]), events[1..]);
    }
  }

  /** A login with the login page's six-hour expiry survives a page reload
      exactly until that expiry, and the reload restores the same user and
      token; after it the reload clears storage. */
  lemma LoginSurvivesReload(s: AuthState, user: User, token: string, loginTime: int, now: int)
    ensures var expiry := loginTime + SessionLifetimeMillis;
      var r := Boot(Login(s, user, token, expiry).stored, now);
      && (r.isAuthenticated <==> now <= expiry)
      && (r.isAuthenticated ==> r.user == Some(user) && r.token == Some(token))
      && (!r.isAuthenticated ==> r.stored.None? && r.user.None? && r.token.None?)
  {
  }
}

=== FILE: sidebar.dfy ===
/** The user badge of the sidebar: initials, display name and role, each
    with its fallback. */
module Sidebar {
  import opened Wrappers
  import opened Text
  import opened Users

  const DefaultLabel := "Usuario"

  /** `name ? name.charAt(0).toUpperCase() : ''`. */
  function InitialOf(name: Option<string>): (r: string)
    ensures |r| <= 1
    ensures Truthy(name) <==> |r| == 1
    ensures Truthy(name) ==> r[0] == UpperChar(name.value[0])
  {
    if Truthy(name) then [UpperChar(name.value[0])] else ""
  }

  /** `getUserInitials()`. */
  function UserInitials(user: Option<User>): (r: string)
    ensures 1 <= |r| <= 2
    ensures forall i :: 0 <= i < |r| ==> !IsLowerAscii(r[i])
    ensures user.None? ==> r == "U"
    ensures user.Some? && !Truthy(user.value.firstName) && !Truthy(user.value.firstLastName) ==> r == "U"
    ensures user.Some? && Truthy(user.value.firstName)
      ==> r[0] == UpperChar(user.value.firstName.value[0])
    ensures user.Some? && Truthy(user.value.firstLastName)
      ==> r[|r| - 1] == UpperChar(user.value.firstLastName.value[0])
    ensures user.Some? ==> (|r| == 2 <==> Truthy(user.value.firstName) && Truthy(user.value.firstLastName))
  {
    match user
    case None => "U"
    case Some(u) =>
      var both := InitialOf(u.firstName) + InitialOf(u.firstLastName);
      if both == "" then "U" else both
  }

  /** `${first_name || ''} ${middle_name || ''}`, before trimming. */
  function JoinedName(u: User): string {
    OrElse(u.firstName, "") + " " + OrElse(u.middleName, "")
  }

  /** `getFullName()`. */
  function FullName(user: Option<User>): (r: string)
    ensures r != "" && Clean(r)
    ensures user.None? ==> r == DefaultLabel
    ensures user.Some? ==> r == DefaultLabel || exists i, j :: TrimmedAt(JoinedName(user.value), r, i, j)
    ensures user.Some? && AllWhitespace(JoinedName(user.value)) ==> r == DefaultLabel
    ensures user.Some? && !AllWhitespace(JoinedName(user.value)) ==> r == Trim(JoinedName(user.value))
  {
    match user
    case None => DefaultLabel
    case Some(u) =>
      var t := Trim(JoinedName(u));
      if t == "" then DefaultLabel else t
  }

  lemma TrimJoinedBoth(f: string, m: string)
    requires Clean(f) && Clean(m) && f != "" && m != ""
    ensures Trim(f + " " + m) == f + " " + m
  {
    var s := f + " " + m;
    assert s[0] == f[0] && s[|s| - 1] == m[|m| - 1];
    TrimAround("", s, "");
    assert "" + s + "" == s;
  }

  lemma TrimJoinedFirst(f: string)
    requires Clean(f) && f != ""
    ensures Trim(f + " " + "") == f
  {
    TrimAround("", f, " ");
    assert "" + f + " " == f + " " + "";
  }

  lemma TrimJoinedMiddle(m: string)
    requires Clean(m) && m != ""
    ensures Trim("" + " " + m) == m
  {
    TrimAround(" ", m, "");
    assert " " + m + "" == "" + " " + m;
  }

  /** Trimming `f + " " + m` for clean parts: the non-empty parts joined
      by one space. */
  lemma TrimJoined(f: string, m: string)
    requires Clean(f) && Clean(m)
    ensures Trim(f + " " + m) == (
        if f != "" && m != "" then f + " " + m
        else if f != "" then f
        else if m != "" then m
        else "")
  {
    if f != "" && m != "" {
      TrimJoinedBoth(f, m);
    } else if f != "" {
      TrimJoinedFirst(f);
    } else if m != "" {
      TrimJoinedMiddle(m);
    } else {
      assert AllWhitespace(f + " " + m);
    }
  }

  /** With name parts that carry no surrounding whitespace, the display
      name is the non-empty parts joined by one space, or the default when
      both are empty. */
  lemma FullNameOfCleanParts(u: User)
    requires Clean(OrElse(u.firstName, "")) && Clean(OrElse(u.middleName, ""))
    ensures var f, m := OrElse(u.firstName, ""), OrElse(u.middleName, "");
      FullName(Some(u)) == (
        if f != "" && m != "" then f + " " + m
        else if f != "" then f
        else if m != "" then m
        else DefaultLabel)
  {
    TrimJoined(OrElse(u.firstName, ""), OrElse(u.middleName, ""));
  }

  /** `user?.role || 'Usuario'`. */
  function RoleLabel(user: Option<User>): (r: string)
    ensures r != ""
    ensures user.Some? && Truthy(user.value.role) ==> r == user.value.role.value
    ensures user.None? || !Truthy(user.value.role) ==> r == DefaultLabel
  {
    if user.Some? then OrElse(user.value.role, DefaultLabel) else DefaultLabel
  }
}

=== FILE: sorting.dfy ===
/** Sorting a copy of a list by an integer key in a direction the user can
    toggle: `[...xs].sort((a, b) => asc ? key(a) - key(b) : key(b) - key(a))`.
    `Array.prototype.sort` is stable, so the model is a stable insertion
    sort: elements with equal keys keep their input order in both
    directions. */
module Sorting {
  import opened Filtering

  datatype Direction = Asc | Desc

  /** `prev === 'asc' ? 'desc' : 'asc'`. */
  function Toggle(d: Direction): (r: Direction)
    ensures r != d
  {
    if d == Asc then Desc else Asc
  }

  /** Toggling twice restores the original direction. */
  lemma ToggleInvolution(d: Direction)
    ensures Toggle(Toggle(d)) == d
  {
  }

  /** The comparator does not put an element keyed `a` after one keyed
      `b`: `a - b <= 0` ascending, `b - a <= 0` descending. */
  predicate InOrder(d: Direction, a: int, b: int) {
    if d == Asc then a <= b else a >= b
  }

  ghost predicate SortedBy<T>(d: Direction, key: T -> int, s: seq<T>) {
    forall i, j :: 0 <= i < j < |s| ==> InOrder(d, key(s[i]), key(s[j]))
  }

  /** Inserts `x` in front of the first element it may precede. */
  function Insert<T>(d: Direction, key: T -> int, x: T, s: seq<T>): (r: seq<T>)
    ensures multiset(r) == multiset(s) + multiset{x}
    ensures |r| == |s| + 1
  {
    if |s| == 0 then [x]
    else if InOrder(d, key(x), key(s[0])) then [x] + s
    else
      assert s == [s[0]] + s[1..];
      [s[0]] + Insert(d, key, x, s[1..])
  }

  lemma {:induction false} InsertSorted<T>(d: Direction, key: T -> int, x: T, s: seq<T>)
    requires SortedBy(d, key, s)
    ensures SortedBy(d, key, Insert(d, key, x, s))
    decreases |s|
  {
    if |s| > 0 && !InOrder(d, key(x), key(s[0])) {
      var rest := Insert(d, key, x, s[1..]);
      InsertSorted(d, key, x, s[1..]);
      forall j | 0 <= j < |rest|
        ensures InOrder(d, key(s[0]), key(rest[j]))
      {
        assert rest[j] in multiset(rest);
        if rest[j] != x {
          assert rest[j] in multiset(s[1..]);
          var k :| 0 <= k < |s[1..]| && s[1..][k] == rest[j];
          assert s[k + 1] == rest[j];
        }
      }
    }
  }

  /** `[...s].sort(comparator)` for the direction `d`. */
  function SortBy<T>(d: Direction, key: T -> int, s: seq<T>): (r: seq<T>)
    ensures multiset(r) == multiset(s)
    ensures |r| == |s|
    ensures SortedBy(d, key, r)
  {
    if |s| == 0 then []
    else
      var rest := SortBy(d, key, s[1..]);
      SortStep(d, key, s, rest);
      Insert(d, key, s[0], rest)
  }

  /** Inserting the head into the sorted tail sorts the whole list. */
  lemma SortStep<T>(d: Direction, key: T -> int, s: seq<T>, rest: seq<T>)
    requires |s| > 0
    requires multiset(rest) == multiset(s[1..]) && SortedBy(d, key, rest)
    ensures multiset(Insert(d, key, s[0], rest)) == multiset(s)
    ensures |Insert(d, key, s[0], rest)| == |s|
    ensures SortedBy(d, key, Insert(d, key, s[0], rest))
  {
    InsertSorted(d, key, s[0], rest);
    assert s == [s[0]] + s[1..];
    assert |rest| == |multiset(rest)| == |s| - 1;
  }

  /** The predicate selecting the elements whose key is `k`. */
  function KeyIs<T>(key: T -> int, k: int): T -> bool {
    y => key(y) == k
  }

  lemma FilterSingleton<T>(x: T, p: T -> bool)
    ensures Filter([x], p) == if p(x) then [x] else []
  {
    assert [x][1..] == [];
  }

  lemma SwapEmpty<T>(a: seq<T>, b: seq<T>, c: seq<T>)
    requires a == [] || b == []
    ensures a + (b + c) == b + (a + c)
  {
  }

  lemma {:induction false} InsertStable<T>(d: Direction, key: T -> int, x: T, s: seq<T>, k: int)
    ensures Filter(Insert(d, key, x, s), KeyIs(key, k))
         == Filter([x], KeyIs(key, k)) + Filter(s, KeyIs(key, k))
    decreases |s|
  {
    var p := KeyIs(key, k);
    if |s| == 0 {
    } else if InOrder(d, key(x), key(s[0])) {
      FilterConcat([x], s, p);
    } else {
      InsertStable(d, key, x, s[1..], k);
      var rest := Insert(d, key, x, s[1..]);
      var fx := Filter([x], p);
      var f0 := Filter([s[0]], p);
      var tail := Filter(s[1..], p);
      FilterSingleton(x, p);
      FilterSingleton(s[0], p);
      assert p(x) == (key(x) == k) && p(s[0]) == (key(s[0]) == k);
      assert key(x) != key(s[0]);
      FilterConcat([s[0]], rest, p);
      FilterConcat([s[0]], s[1..], p);
      assert [s[0]] + s[1..] == s;
      SwapEmpty(f0, fx, tail);
    }
  }

  /** Stability: the elements sharing any one key come out in the same
      relative order as they went in, in both directions. */
  lemma {:induction false} SortStable<T>(d: Direction, key: T -> int, s: seq<T>, k: int)
    ensures Filter(SortBy(d, key, s), KeyIs(key, k)) == Filter(s, KeyIs(key, k))
    decreases |s|
  {
    if |s| > 0 {
      var p := KeyIs(key, k);
      SortStable(d, key, s[1..], k);
      InsertStable(d, key, s[0], SortBy(d, key, s[1..]), k);
      FilterConcat([s[0]], s[1..], p);
      assert [s[0]] + s[1..] == s;
    }
  }

  /** No two elements of `s` share a key. */
  ghost predicate DistinctKeys<T>(key: T -> int, s: seq<T>) {
    forall i, j :: 0 <= i < j < |s| ==> key(s[i]) != key(s[j])
  }

  lemma {:induction false} InsertDistinct<T>(d: Direction, key: T -> int, x: T, s: seq<T>)
    requires DistinctKeys(key, s)
    requires forall i :: 0 <= i < |s| ==> key(s[i]) != key(x)
    ensures DistinctKeys(key, Insert(d, key, x, s))
    decreases |s|
  {
    if |s| > 0 && !InOrder(d, key(x), key(s[0])) {
      var rest := Insert(d, key, x, s[1..]);
      InsertDistinct(d, key, x, s[1..]);
      forall j | 0 <= j < |rest|
        ensures key(s[0]) != key(rest[j])
      {
        assert rest[j] in multiset(rest);
        if rest[j] != x {
          assert rest[j] in multiset(s[1..]);
          var k :| 0 <= k < |s[1..]| && s[1..][k] == rest[j];
          assert s[k + 1] == rest[j];
        }
      }
    }
  }

  lemma {:induction false} SortDistinct<T>(d: Direction, key: T -> int, s: seq<T>)
    requires DistinctKeys(key, s)
    ensures DistinctKeys(key, SortBy(d, key, s))
    decreases |s|
  {
    if |s| > 0 {
      var rest := SortBy(d, key, s[1..]);
      SortDistinct(d, key, s[1..]);
      forall i | 0 <= i < |rest|
        ensures key(rest[i]) != key(s[0])
      {
        assert rest[i] in multiset(rest);
        assert rest[i] in multiset(s[1..]);
        var k :| 0 <= k < |s[1..]| && s[1..][k] == rest[i];
        assert s[k + 1] == rest[i];
      }
      InsertDistinct(d, key, s[0], rest);
    }
  }

  /** Two sorted orderings of the same elements with distinct keys start
      with the same element. */
  lemma SortedHeadsEqual<T>(d: Direction, key: T -> int, a: seq<T>, b: seq<T>)
    requires SortedBy(d, key, a) && SortedBy(d, key, b)
    requires DistinctKeys(key, a)
    requires multiset(a) == multiset(b)
    requires |a| > 0 && |b| > 0
    ensures a[0] == b[0]
  {
    assert a[0] in multiset(b);
    var j :| 0 <= j < |b| && b[j] == a[0];
    assert b[0] in multiset(a);
    var i :| 0 <= i < |a| && a[i] == b[0];
    assert i != 0 ==> InOrder(d, key(a[0]), key(b[0]));
    assert j != 0 ==> InOrder(d, key(b[0]), key(a[0]));
  }

  /** Two orderings of the same elements that are both sorted, when the
      keys are distinct, are the same sequence. */
  lemma {:induction false} SortedUnique<T>(d: Direction, key: T -> int, a: seq<T>, b: seq<T>)
    requires SortedBy(d, key, a) && SortedBy(d, key, b)
    requires DistinctKeys(key, a)
    requires multiset(a) == multiset(b)
    ensures a == b
    decreases |a|
  {
    assert |a| == |multiset(a)| == |multiset(b)| == |b|;
    if |a| > 0 {
      SortedHeadsEqual(d, key, a, b);
      TailFacts(d, key, a);
      TailFacts(d, key, b);
      assert multiset(a[1..]) == multiset(b[1..]);
      SortedUnique(d, key, a[1..], b[1..]);
      ConsEqual(a, b);
    }
  }

  lemma ConsEqual<T>(a: seq<T>, b: seq<T>)
    requires |a| > 0 && |b| > 0 && a[0] == b[0] && a[1..] == b[1..]
    ensures a == b
  {
    assert a == [a[0]] + a[1..] && b == [b[0]] + b[1..];
  }

  /** Dropping the head keeps the order and the distinct keys, and removes
      one copy of the head from the multiset. */
  lemma TailFacts<T>(d: Direction, key: T -> int, a: seq<T>)
    requires |a| > 0
    ensures SortedBy(d, key, a) ==> SortedBy(d, key, a[1..])
    ensures DistinctKeys(key, a) ==> DistinctKeys(key, a[1..])
    ensures multiset(a[1..]) == multiset(a) - multiset{a[0]}
  {
    assert a == [a[0]] + a[1..];
  }

  function Reverse<T>(s: seq<T>): (r: seq<T>)
    ensures |r| == |s|
    ensures forall i :: 0 <= i < |s| ==> r[i] == s[|s| - 1 - i]
  {
    if |s| == 0 then [] else Reverse(s[1..]) + [s[0]]
  }

  lemma {:induction false} ReverseMultiset<T>(s: seq<T>)
    ensures multiset(Reverse(s)) == multiset(s)
    decreases |s|
  {
    if |s| > 0 {
      ReverseMultiset(s[1..]);
      assert s == [s[0]] + s[1..];
    }
  }

  lemma ReverseAscIsDesc<T>(key: T -> int, s: seq<T>)
    requires SortedBy(Asc, key, s)
    ensures SortedBy(Desc, key, Reverse(s))
  {
    var rev := Reverse(s);
    forall i, j | 0 <= i < j < |rev|
      ensures InOrder(Desc, key(rev[i]), key(rev[j]))
    {
      assert rev[i] == s[|s| - 1 - i] && rev[j] == s[|s| - 1 - j];
    }
  }

  /** With distinct keys, the descending order is exactly the ascending
      order read backwards. */
  lemma DescIsReversedAsc<T>(key: T -> int, s: seq<T>)
    requires DistinctKeys(key, s)
    ensures SortBy(Desc, key, s) == Reverse(SortBy(Asc, key, s))
  {
    var asc := SortBy(Asc, key, s);
    var desc := SortBy(Desc, key, s);
    var rev := Reverse(asc);
    ReverseMultiset(asc);
    ReverseAscIsDesc(key, asc);
    SortDistinct(Desc, key, s);
    SortedUnique(Desc, key, desc, rev);
  }

  /** The two lists hold, key by key, the same elements in the same order. */
  ghost predicate SameKeyOrder<T>(key: T -> int, a: seq<T>, b: seq<T>) {
    forall k :: Filter(a, KeyIs(key, k)) == Filter(b, KeyIs(key, k))
  }

  lemma SameKeyOrderMembers<T>(key: T -> int, a: seq<T>, b: seq<T>)
    requires SameKeyOrder(key, a, b)
    ensures |a| > 0 ==> a[0] in b
    ensures |b| > 0 ==> b[0] in a
  {
    if |a| > 0 {
      assert a[0] in Filter(a, KeyIs(key, key(a[0])));
    }
    if |b| > 0 {
      assert b[0] in Filter(b, KeyIs(key, key(b[0])));
    }
  }

  lemma SameKeyOrderHeads<T>(d: Direction, key: T -> int, a: seq<T>, b: seq<T>)
    requires SortedBy(d, key, a) && SortedBy(d, key, b)
    requires SameKeyOrder(key, a, b)
    requires |a| > 0 && |b| > 0
    ensures a[0] == b[0]
  {
    SameKeyOrderMembers(key, a, b);
    var j :| 0 <= j < |b| && b[j] == a[0];
    var i :| 0 <= i < |a| && a[i] == b[0];
    assert j != 0 ==> InOrder(d, key(b[0]), key(a[0]));
    assert i != 0 ==> InOrder(d, key(a[0]), key(b[0]));
    assert j == 0 ==> b[0] == a[0];
    assert i == 0 ==> a[i] == b[0];
    assert key(a[0]) == key(b[0]);
    var p := KeyIs(key, key(a[0]));
    assert p(a[0]) && p(b[0]);
    var fa, fb := Filter(a, p), Filter(b, p);
    assert fa == fb;
    assert fa == [a[0]] + Filter(a[1..], p);
    assert fb == [b[0]] + Filter(b[1..], p);
    assert fa[0] == a[0] && fb[0] == b[0];
  }

  lemma SameKeyOrderTails<T>(key: T -> int, a: seq<T>, b: seq<T>)
    requires SameKeyOrder(key, a, b)
    requires |a| > 0 && |b| > 0 && a[0] == b[0]
    ensures SameKeyOrder(key, a[1..], b[1..])
  {
    forall k
      ensures Filter(a[1..], KeyIs(key, k)) == Filter(b[1..], KeyIs(key, k))
    {
      var q := KeyIs(key, k);
      var h: seq<T> := if q(a[0]) then [a[0]] else [];
      assert Filter(a, q) == Filter(b, q);
      assert Filter(a, q) == h + Filter(a[1..], q);
      assert Filter(b, q) == h + Filter(b[1..], q);
      assert Filter(a[1..], q) == Filter(a, q)[|h|..];
      assert Filter(b[1..], q) == Filter(b, q)[|h|..];
    }
  }

  /** A sorted list whose elements of each key appear in the same order as
      in another sorted list is that list. */
  lemma {:induction false} StableSortedUnique<T>(d: Direction, key: T -> int, a: seq<T>, b: seq<T>)
    requires SortedBy(d, key, a) && SortedBy(d, key, b)
    requires SameKeyOrder(key, a, b)
    ensures a == b
    decreases |a|
  {
    SameKeyOrderMembers(key, a, b);
    if |a| > 0 && |b| > 0 {
      SameKeyOrderHeads(d, key, a, b);
      SameKeyOrderTails(key, a, b);
      TailFacts(d, key, a);
      TailFacts(d, key, b);
      StableSortedUnique(d, key, a[1..], b[1..]);
      ConsEqual(a, b);
    }
  }

  /** Any stable sort with the same comparator gives the model's result: a
      sorted list that keeps each key's elements in input order is
      `SortBy`. */
  lemma SortByIsTheStableSort<T>(d: Direction, key: T -> int, s: seq<T>, b: seq<T>)
    requires SortedBy(d, key, b) && SameKeyOrder(key, s, b)
    ensures b == SortBy(d, key, s)
  {
    forall k
      ensures Filter(SortBy(d, key, s), KeyIs(key, k)) == Filter(b, KeyIs(key, k))
    {
      SortStable(d, key, s, k);
    }
    StableSortedUnique(d, key, SortBy(d, key, s), b);
  }
}

=== FILE: text.dfy ===
/** String helpers the pages rely on: JavaScript truthiness of optional
    strings, `toLowerCase`/`toUpperCase` restricted to ASCII letters,
    `String.prototype.trim` and `String.prototype.includes`. */
module Text {
  import opened Wrappers

  /** JavaScript truthiness of an optional string: present and non-empty. */
  predicate Truthy(o: Option<string>) {
    o.Some? && o.value != ""
  }

  /** `o || fallback` for an optional string. */
  function OrElse(o: Option<string>, fallback: string): string {
    if Truthy(o) then o.value else fallback
  }

  predicate IsUpperAscii(c: char) {
    'A' <= c <= 'Z'
  }

  predicate IsLowerAscii(c: char) {
    'a' <= c <= 'z'
  }

  /** `toLowerCase` on one character, ASCII letters only. */
  function LowerChar(c: char): (r: char)
    ensures !IsUpperAscii(r)
    ensures IsUpperAscii(c) ==> IsLowerAscii(r) && r as int == c as int + 32
    ensures !IsUpperAscii(c) ==> r == c
  {
    if IsUpperAscii(c) then (c as int + 32) as char else c
  }

  /** `toUpperCase` on one character, ASCII letters only. */
  function UpperChar(c: char): (r: char)
    ensures !IsLowerAscii(r)
    ensures IsLowerAscii(c) ==> IsUpperAscii(r) && r as int == c as int - 32
    ensures !IsLowerAscii(c) ==> r == c
  {
    if IsLowerAscii(c) then (c as int - 32) as char else c
  }

  function Lower(s: string): (r: string)
    ensures |r| == |s|
    ensures forall i :: 0 <= i < |s| ==> r[i] == LowerChar(s[i])
  {
    seq(|s|, i requires 0 <= i < |s| => LowerChar(s[i]))
  }

  /** Lower-casing twice is lower-casing once, so a term that is already
      lower case is matched the same way as the original. */
  lemma LowerIdempotent(s: string)
    ensures Lower(Lower(s)) == Lower(s)
  {
  }

  /** `needle` occurs in `hay` starting at index `i`. */
  ghost predicate OccursAt(hay: string, needle: string, i: int) {
    0 <= i && i + |needle| <= |hay| && hay[i..i + |needle|] == needle
  }

  /** `hay.includes(needle)`: tries every start position from the left. */
  function Includes(hay: string, needle: string): (b: bool)
    ensures needle == [] ==> b
    ensures b ==> |needle| <= |hay|
    ensures b && |needle| > 0 ==> needle[0] in hay
    decreases |hay|
  {
    if needle <= hay then true
    else if |hay| == 0 then false
    else Includes(hay[1..], needle)
  }

  /** The scan finds the needle exactly when it occurs somewhere. */
  lemma {:induction false} IncludesIffOccurs(hay: string, needle: string)
    ensures Includes(hay, needle) <==> exists i :: OccursAt(hay, needle, i)
    decreases |hay|
  {
    if needle <= hay {
      assert OccursAt(hay, needle, 0);
    } else if |hay| == 0 {
    } else {
      IncludesIffOccurs(hay[1..], needle);
      if Includes(hay, needle) {
        var j :| OccursAt(hay[1..], needle, j);
        assert hay[j + 1..j + 1 + |needle|] == hay[1..][j..j + |needle|];
        assert OccursAt(hay, needle, j + 1);
      }
      if exists i :: OccursAt(hay, needle, i) {
        var i :| OccursAt(hay, needle, i);
        assert hay[1..][i - 1..i - 1 + |needle|] == hay[i..i + |needle|];
        assert OccursAt(hay[1..], needle, i - 1);
      }
    }
  }

  /** `hay.toLowerCase().includes(term.toLowerCase())`. */
  predicate ContainsIgnoreCase(hay: string, term: string) {
    Includes(Lower(hay), Lower(term))
  }

  /** The case-insensitive match means: the lower-cased term occurs in the
      lower-cased text; in particular the empty term matches every text. */
  lemma ContainsIgnoreCaseMeaning(hay: string, term: string)
    ensures ContainsIgnoreCase(hay, term) <==> exists i :: OccursAt(Lower(hay), Lower(term), i)
    ensures term == "" ==> ContainsIgnoreCase(hay, term)
  {
    IncludesIffOccurs(Lower(hay), Lower(term));
  }

  /** The code points `String.prototype.trim` removes: ECMAScript
      WhiteSpace (TAB, VT, FF, SP, NBSP, ZWNBSP and category Zs) and
      LineTerminator (LF, CR, LS, PS). */
  predicate IsJsWhitespace(c: char) {
    var n := c as int;
    (9 <= n <= 13) || n == 0x20 || n == 0xA0 || n == 0x1680
    || (0x2000 <= n <= 0x200A) || n == 0x2028 || n == 0x2029
    || n == 0x202F || n == 0x205F || n == 0x3000 || n == 0xFEFF
  }

  predicate AllWhitespace(s: string) {
    forall i :: 0 <= i < |s| ==> IsJsWhitespace(s[i])
  }

  /** Length of the longest all-whitespace prefix. */
  function LeadingWhitespace(s: string): (k: nat)
    ensures k <= |s|
    ensures AllWhitespace(s[..k])
    ensures k < |s| ==> !IsJsWhitespace(s[k])
  {
    if |s| > 0 && IsJsWhitespace(s[0]) then
      var k' := LeadingWhitespace(s[1..]);
      assert s[1..][..k'] == s[1..k' + 1];
      1 + k'
    else 0
  }

  /** Length of the longest all-whitespace suffix. */
  function TrailingWhitespace(s: string): (k: nat)
    ensures k <= |s|
    ensures AllWhitespace(s[|s| - k..])
    ensures k < |s| ==> !IsJsWhitespace(s[|s| - k - 1])
  {
    if |s| > 0 && IsJsWhitespace(s[|s| - 1]) then
      var k' := TrailingWhitespace(s[..|s| - 1]);
      assert s[..|s| - 1][|s| - 1 - k'..] == s[|s| - 1 - k'..|s| - 1];
      1 + k'
    else 0
  }

  /** `r` is `s` with whitespace cut off both ends at `i` and `j`. */
  ghost predicate TrimmedAt(s: string, r: string, i: int, j: int) {
    0 <= i <= j <= |s| && r == s[i..j]
    && AllWhitespace(s[..i]) && AllWhitespace(s[j..])
  }

  /** A string with no whitespace at either end. */
  predicate Clean(s: string) {
    s == [] || (!IsJsWhitespace(s[0]) && !IsJsWhitespace(s[|s| - 1]))
  }

  /** `s.trim()`. */
  function Trim(s: string): (r: string)
    ensures Clean(r)
    ensures exists i, j :: TrimmedAt(s, r, i, j)
    ensures r == [] <==> AllWhitespace(s)
  {
    var a := LeadingWhitespace(s);
    var t := s[a..];
    var b := TrailingWhitespace(t);
    assert t[|t| - b..] == s[|s| - b..];
    assert TrimmedAt(s, t[..|t| - b], a, |s| - b);
    if AllWhitespace(s) then
      assert a == |s|;
      t[..|t| - b]
    else
      assert a < |s|;
      assert |t| - b > 0;
      assert t[..|t| - b][0] == s[a];
      t[..|t| - b]
  }

  /** Whitespace around a clean core is exactly what trim removes. */
  lemma TrimAround(pre: string, core: string, post: string)
    requires AllWhitespace(pre) && AllWhitespace(post)
    requires Clean(core) && core != []
    ensures Trim(pre + core + post) == core
  {
    var s := pre + core + post;
    var a := LeadingWhitespace(s);
    assert s[|pre|] == core[0];
    assert a == |pre|;
    var t := s[a..];
    assert t == core + post;
    var b := TrailingWhitespace(t);
    assert t[|core| - 1] == core[|core| - 1];
    assert b == |post|;
    assert t[..|t| - b] == core;
  }

  /** Trimming is idempotent. */
  lemma TrimIdempotent(s: string)
    ensures Trim(Trim(s)) == Trim(s)
  {
    var r := Trim(s);
    if r != [] {
      TrimAround([], r, []);
      assert [] + r + [] == r;
    }
  }
}

=== FILE: users.dfy ===
/** The user record the backend returns at login (`uuid`, `first_name`,
    `middle_name`, `first_last_name`, `role`); every name part may be
    missing. */
module Users {
  import opened Wrappers

  datatype User = User(
    uuid: string,
    firstName: Option<string>,
    middleName: Option<string>,
    firstLastName: Option<string>,
    role: Option<string>)
}

=== FILE: wrappers.dfy ===
/** The optional value used wherever the client reads a field that the
    backend may omit or send as `null` in the JSON payload. */
module Wrappers {

  datatype Option<+T> = None | Some(value: T) {

    /** The wrapped value, or `default` when absent. */
    function GetOr(default: T): T {
      match this
      case Some(v) => v
      case None => default
    }
  }
}
